=== FILE: README.md ===
# Expense tracker backend, modelled in Dafny

This project models the backend of a personal expense tracker. Users register
and log in by email and password. They record transactions, where a
transaction is either income or an expense. The backend serves three reports
over those transactions:
- the all-time balance;
- the summary of the current month;
- the expense totals per category.

Each account also holds a profile, settings (currency and monthly budget) and
a list of budgeting categories.

The model covers the two schemas, the three report pipelines and the three
routers (transactions, users, authentication). Each is written as pure
functions over immutable stores:

| module | models |
|---|---|
| `Common` | identifiers, optional request fields, error kinds, and the `trim` and `lowercase` setters |
| `Sorting` | the database's descending sort, as an insertion sort with a permutation guarantee |
| `ExpenseModel` | the transaction schema: enumerations, constraints, the create default and the update write |
| `Reports` | the balance, monthly-summary and per-category pipelines, as folds over the collection |
| `ExpenseRoutes` | the transaction store and its routes: create, get, update, delete, paginated list, recent, dashboard stats |
| `UserModel` | the account schema, the email normalisation, the account view and the users collection |
| `CategoryList` | the category list inside an account, and the random colour a new category gets |
| `UserRoutes` | profile, settings, categories and account deletion |
| `Auth` | registration and login |

Modelling choices:
- A store is a map from identifiers to documents plus the next identifier to
  hand out. Identifiers are naturals in creation order, and a collection's
  natural order is ascending identifier order.
- Amounts are `real`. Dates are integers in milliseconds.
- Things the backend reads from outside become parameters: the current time
  (`now`), the bounds of the current month (`Month`), the value drawn for a
  random colour (`rand`), and the schema's email pattern (`validEmail`).
- An error answer is an `Err` carrying its kind. A schema rejection carries
  the set of paths that failed. An exception caught by a handler is
  `InternalError`.

## Model

| member | source | states |
|---|---|---|
| Common.TrimSpec | backend/models/Expense.js:12 | the trim setter keeps one contiguous slice of the input; everything cut from either end is whitespace; the slice neither starts nor ends with whitespace |
| Common.TrimIdempotent | backend/models/User.js:7 | a trimmed value is a fixed point of the trim setter |
| Common.ToLower | backend/models/User.js:14 | lower-casing keeps the length, maps each character by itself, and leaves no upper-case ASCII letter |
| Common.ToLowerIdempotent | backend/models/User.js:14 | lower-casing a lower-cased value changes nothing |
| Sorting.Sort | backend/routes/expenseRoutes.js:194 | a descending sort returns exactly the input's elements, as a multiset, in non-increasing key order |
| Sorting.SortMembers | backend/models/Expense.js:125 | the sorted sequence and its input have the same members |
| Sorting.Insert | backend/routes/expenseRoutes.js:194 | placing one element into a sorted sequence adds exactly that element, as a multiset |
| Sorting.InsertSorted | backend/routes/expenseRoutes.js:194 | placing one element into a sequence in non-increasing key order keeps it in that order |
| ExpenseModel.ParseCategory | backend/models/Expense.js:20-24 | the category enum accepts a string exactly when it is one of the eight category names |
| ExpenseModel.CategoryNameRoundTrip | backend/models/Expense.js:23 | every category's name parses back to that category |
| ExpenseModel.ParseKind | backend/models/Expense.js:25-29 | the type enum accepts exactly "income" and "expense" |
| ExpenseModel.KindNameRoundTrip | backend/models/Expense.js:27 | every type's name parses back to that type |
| ExpenseModel.ViolationsPaths | backend/models/Expense.js:9-37 | each path fails exactly when its written value breaks its constraint (trimmed description length, amount below 0.01, category or type outside its enum, notes too long), or, on a create, when a required path is not written; notes are never required |
| ExpenseModel.New | backend/models/Expense.js:3-37 | a create that passed validation stores a transaction that meets every schema constraint, holds each sent path, gets `now` as its date when none was sent, and gets no notes when none were sent |
| ExpenseModel.Apply | backend/routes/expenseRoutes.js:285-297 | an update that passed validation leaves a valid transaction with the same owner; each sent path is written and each unsent path is kept |
| ExpenseModel.ValidRoundTrip | backend/models/Expense.js:9-37 | the schema accepts a transaction's own fields exactly when its trimmed description, amount and notes meet their bounds; a valid transaction sent back as a create is rebuilt unchanged |
| ExpenseModel.ApplyAllFields | backend/routes/expenseRoutes.js:285-297 | sending every field of a valid transaction as an update makes the stored one equal to it, except for the owner and except that missing notes cannot clear stored notes |
| ExpenseModel.CategoryIndependentOfKind | backend/models/Expense.js:20-29 | the schema does not tie category to type: every category is valid with every type |
| Reports.Sum | backend/models/Expense.js:53-61 | a `$sum` over non-negative amounts is non-negative, and is 0 when the `$match` selects nothing |
| Reports.SumConcat | backend/models/Expense.js:53-61 | a `$sum` over two collections together is the sum of the two |
| Reports.SumMonotone | backend/models/Expense.js:84-94 | widening a `$match` never lowers the `$sum` of non-negative amounts |
| Reports.SumSort | backend/models/Expense.js:125 | reordering a collection by a sort does not change any `$sum` over it |
| Reports.UserBalance | backend/models/Expense.js:47-76 | the balance is total income minus total expenses, and over valid amounts both totals are non-negative |
| Reports.NoTransactionsZeroBalance | backend/models/Expense.js:75 | a user with no transactions gets the all-zero balance |
| Reports.BalanceConcat | backend/models/Expense.js:47-76 | income, expenses and balance each add up over two collections |
| Reports.BalanceAfterRecording | backend/models/Expense.js:47-76 | one more transaction adds its amount to the total income exactly when it is the user's income, to the total expenses exactly when it is the user's expense, and moves the balance by its signed amount |
| Reports.Summarize | backend/models/Expense.js:99-107 | savings are income minus expenses; with positive income the savings rate is savings as a percentage of income; without income the rate is 0 |
| Reports.SavingsRateAtMostHundred | backend/models/Expense.js:106 | with non-negative expenses the savings rate is at most 100, and with positive income it is exactly 100 when nothing was spent and only then |
| Reports.MonthlySummaryAsWritten | backend/models/Expense.js:79-108 | the month summary over the window as written (the month's first midnight through the midnight that starts its last day) has savings equal to income minus expenses and a rate of at most 100, and its income and expenses lie between 0 and the all-time totals |
| Reports.MonthlyAsWrittenAfterRecording | backend/models/Expense.js:84-100 | one more transaction adds its amount to the month's income (expenses) as written exactly when it is the user's income (expense) dated from the month's first midnight to the midnight that starts its last day |
| Reports.MonthlySummaryOf | backend/models/Expense.js:79-108 | the month summary over the whole month has savings equal to income minus expenses and a rate of at most 100, and its income and expenses lie between 0 and the all-time totals |
| Reports.MonthlyAfterRecording | backend/models/Expense.js:84-100 | one more transaction adds its amount to the whole-month income (expenses) exactly when it is the user's income (expense) dated from the month's first midnight to the last millisecond of its last day |
| Reports.NoTransactionsZeroSummary | backend/models/Expense.js:99-106 | a user without transactions gets the all-zero month summary in both windows |
| Reports.LastDayDropped | backend/models/Expense.js:82-88 | an income dated one millisecond into the month's last day counts for nothing in the summary as written, but counts in full over the whole month |
| Reports.WindowsAgreeBeforeLastDay | backend/models/Expense.js:82-88 | for transactions dated no later than midnight on the last day, the summary as written and the whole-month summary agree |
| Reports.AddTo | backend/models/Expense.js:120-124 | adding an amount to a category's group leaves every existing entry's category in place and raises only that category's total; a new entry holding just the amount is appended exactly when no entry had the category |
| Reports.AddToCategories | backend/models/Expense.js:120-124 | after adding, the categories are still distinct, and they are the earlier ones plus the added one |
| Reports.AddToSum | backend/models/Expense.js:122 | adding an amount to the groups raises their grand total by exactly that amount |
| Reports.Group | backend/models/Expense.js:112-124 | grouping gives one entry per category in which the user has an expense; each entry holds that category's full expense total, and the entries add up to the user's total expenses |
| Reports.GroupStep | backend/models/Expense.js:112-124 | folding the first transaction into the groups of the others gives the groups of the whole collection: distinct categories, the categories of its expenses, full totals and the same grand total |
| Reports.AddToTotals | backend/models/Expense.js:120-124 | folding a matching expense into the groups of the others keeps each entry equal to its category's expense total over the whole collection |
| Reports.SumTotalsSort | backend/models/Expense.js:125 | sorting the groups by total does not change their grand total |
| Reports.DistinctSort | backend/models/Expense.js:125 | sorting the groups keeps each category to one entry |
| Reports.SortKeepsTotals | backend/models/Expense.js:125 | sorting the groups keeps the same categories, each still holding its full expense total |
| Reports.CategoryWiseExpenses | backend/models/Expense.js:111-129 | the category report lists each category of the user's expenses once, largest total first, with its full total; all totals together equal the balance's total expenses |
| Reports.NoExpensesEmptyBreakdown | backend/models/Expense.js:112-124 | a user without expenses gets an empty category report |
| ExpenseRoutes.Scan | backend/routes/expenseRoutes.js:193 | a scan up to an identifier bound yields, in ascending identifier order, the document under each stored identifier below the bound exactly once |
| ExpenseRoutes.All | backend/routes/expenseRoutes.js:193 | the natural-order scan holds each stored document once per identifier, in ascending identifier order, and all of them are valid |
| ExpenseRoutes.Owned | backend/routes/expenseRoutes.js:193 | the find by owner keeps exactly the transactions of that user, each as many times as it occurs |
| ExpenseRoutes.RequiredPresent | backend/routes/expenseRoutes.js:248 | the presence check passes exactly when the user, a non-empty description, a non-zero amount, a non-empty category and a non-empty type are all sent |
| ExpenseRoutes.Create | backend/routes/expenseRoutes.js:244-263 | a falsy required field (so also an amount of 0) gives the presence error; then a schema violation gives a validation error naming the failing paths; otherwise exactly one new document is stored, under an unused identifier, holding what was sent, except that a date that is missing or 0 (falsy) is replaced by `now` |
| ExpenseRoutes.Insert | backend/routes/expenseRoutes.js:255-263 | storing a valid transaction keeps the store well formed and adds it under the next identifier, which no document held |
| ExpenseRoutes.AllAfterInsert | backend/routes/expenseRoutes.js:255-263 | a stored transaction comes last in the natural order, after every earlier one |
| ExpenseRoutes.NonPositiveAmountRejected | backend/routes/expenseRoutes.js:248 | a create with an amount of zero or less never stores anything; zero fails the presence check |
| ExpenseRoutes.Get | backend/routes/expenseRoutes.js:218-227 | get answers "not found" exactly for an unknown identifier, and otherwise the transaction stored under that identifier |
| ExpenseRoutes.CreateThenGet | backend/routes/expenseRoutes.js:244-263 | a get of a created transaction's identifier returns what the create sent, with a zero date replaced by the clock, owned by the creator |
| ExpenseRoutes.Update | backend/routes/expenseRoutes.js:281-304 | an update's validators run before the lookup; an invalid update names its failing paths even for an unknown identifier; a valid update of a stored transaction rewrites only that document, writing the sent paths and keeping the rest |
| ExpenseRoutes.Delete | backend/routes/expenseRoutes.js:322-331 | delete answers "not found" exactly for an unknown identifier, and otherwise removes that document only |
| ExpenseRoutes.UpdateThenGet | backend/routes/expenseRoutes.js:281-304 | a get after a successful update returns the document with the sent paths written and the other paths and the owner as before |
| ExpenseRoutes.DeleteThenGet | backend/routes/expenseRoutes.js:322-331 | after a delete, a get of that identifier is "not found" and a get of any other identifier answers as before |
| ExpenseRoutes.CreateThenDelete | backend/routes/expenseRoutes.js:322-331 | deleting a transaction right after creating it restores the documents as they were |
| ExpenseRoutes.NewestFirst | backend/routes/expenseRoutes.js:194 | the date sort returns the same transactions, newest first |
| ExpenseRoutes.NewestFirstOwned | backend/routes/expenseRoutes.js:193-194 | every transaction in a user's date-sorted list is a stored transaction of that user |
| ExpenseRoutes.TimesIsProduct | backend/routes/expenseRoutes.js:196 | the repeated addition used for `(page - 1) * limit` is the ordinary product |
| ExpenseRoutes.CeilDiv | backend/routes/expenseRoutes.js:203 | the page count is the fewest pages of the limit's size that hold every transaction |
| ExpenseRoutes.Page | backend/routes/expenseRoutes.js:195-196 | a page holds at most `limit` transactions, taken from the input as one contiguous run after skipping the earlier pages; it is full whenever the input reaches that far, otherwise it runs to the input's end, and it stays sorted when its input is |
| ExpenseRoutes.List | backend/routes/expenseRoutes.js:190-206 | page 0 with a positive limit fails (a negative skip); otherwise the answer holds the user's total count, the requested page of their transactions sorted newest first (the run after skipping the earlier pages, at most `limit` long), and a page count that covers the total with no empty page at the end; a limit of 0 returns everything and a page count that is not a number |
| ExpenseRoutes.ListQuery | backend/routes/expenseRoutes.js:192 | a missing page is page 1, which never fails; a missing limit is 10, giving a finite page count and at most ten transactions; whichever of the two is sent is used as it is, with the other's default, and with neither sent the answer is the list of page 1 of ten |
| ExpenseRoutes.NoQueryIsNewestTen | backend/routes/expenseRoutes.js:192-196 | without a query the list shows the user's ten newest transactions, or all of them when there are fewer |
| ExpenseRoutes.PagesPrefix | backend/routes/expenseRoutes.js:195-196 | pages 1 to k, laid end to end, are the first k·limit transactions |
| ExpenseRoutes.PagesCoverAll | backend/routes/expenseRoutes.js:190-206 | reading pages 1 through the reported page count gives every transaction of the user exactly once, newest first |
| ExpenseRoutes.PageBeyondLastEmpty | backend/routes/expenseRoutes.js:195-196 | a page past the reported page count is empty |
| ExpenseRoutes.Recent | backend/routes/expenseRoutes.js:375-379 | the recent view is the first five of the user's transactions newest first, or all of them when there are fewer |
| ExpenseRoutes.RecentIsFirstPage | backend/routes/expenseRoutes.js:375-379 | the recent view is page 1 of the list with a limit of five |
| ExpenseRoutes.DashboardStats | backend/routes/expenseRoutes.js:348-363 | the statistics are the user's balance, the month summary as `getMonthlySummary` computes it, and the category breakdown, over one state of the store; so the balance is income minus expenses, the category totals add up to the total expenses with each category once and largest first, the month's totals lie between 0 and the all-time totals, and the savings rate is at most 100 |
| ExpenseRoutes.DashboardStatsOf | backend/routes/expenseRoutes.js:348-363 | the statistics as evidently intended: the same balance and breakdown, with the month summary over the whole month |
| ExpenseRoutes.StatsAgreeBeforeLastDay | backend/models/Expense.js:82-88 | with nothing dated after midnight on the month's last day, the written and the intended statistics agree |
| ExpenseRoutes.StatsAfterRecording | backend/routes/expenseRoutes.js:244-263 | storing a transaction raises the user's total income or expenses by its amount when it is theirs and of that type, and the month's totals too when it is dated inside the window as written |
| ExpenseRoutes.NoTransactionsEmptyStats | backend/routes/expenseRoutes.js:348-363 | a user without transactions gets all-zero statistics and an empty category list |
| UserModel.ParseCurrency | backend/models/User.js:27-31 | the currency enum accepts exactly the six currency codes |
| UserModel.CurrencyCodeRoundTrip | backend/models/User.js:30 | every currency's code parses back to that currency |
| UserModel.NormalizeEmailIdempotent | backend/models/User.js:14-15 | a stored email is a fixed point of the email setters, so normalising again finds it |
| UserModel.NormalizeEmailSpec | backend/models/User.js:14-15 | the email setters keep one contiguous slice of the lower-cased input, cutting only whitespace from either end, so the result has no upper-case ASCII letter and no surrounding whitespace |
| UserModel.LowerSliceUnchanged | backend/models/User.js:14-15 | every piece of a lower-cased string is already lower case |
| UserModel.AccountViolations | backend/models/User.js:4-26 | account creation fails on the name exactly when the trimmed name is empty or longer than 50, on the email exactly when the normalised email is empty or does not match the pattern, and on the password exactly when it is shorter than 8 |
| UserModel.NewAccount | backend/models/User.js:3-49 | account creation fails with exactly the set of failing paths; otherwise it stores the trimmed name, the normalised email that matches the pattern, the password as given, currency USD, budget 0 and no categories, and the result meets every schema constraint |
| UserModel.View | backend/routes/auth.js:46-54 | an account's view carries its identifier, name, email, currency, budget and categories |
| UserModel.ViewHidesPassword | backend/models/User.js:25 | two accounts that differ only in their password have the same view |
| UserModel.UniqueEmailsUpdate | backend/models/User.js:13 | storing an account whose email no other account holds keeps the unique index on email |
| UserModel.WfAccountsRemove | backend/routes/users.js:302 | removing an account keeps every remaining account valid and the unique index on email |
| CategoryList.Hex | backend/routes/users.js:125 | `toString(16)` writes at least one lower-case hexadecimal digit, with no leading zero |
| CategoryList.HexRoundTrip | backend/routes/users.js:125 | reading back the hexadecimal numeral gives the number |
| CategoryList.HexLength | backend/routes/users.js:125 | a number below 16^k takes at most k hexadecimal digits |
| CategoryList.RandomColor | backend/routes/users.js:125 | a random colour is '#' followed by one to six hexadecimal digits that read back as the drawn number; it is not padded to six digits |
| CategoryList.FindByName | backend/routes/users.js:111-113 | the duplicate check finds an entry exactly when some category's name equals the new name up to letter case |
| CategoryList.IndexOf | backend/routes/users.js:159 | lookup by identifier finds the first entry with that identifier, and finds none exactly when no entry has it |
| CategoryList.FreshId | backend/routes/users.js:122 | a new entry's identifier differs from every existing one |
| CategoryList.Add | backend/routes/users.js:110-126 | a missing name throws when there is an entry to compare with; a name equal to an existing one up to case is a duplicate; an empty name fails validation; otherwise one entry is appended at the end with the name, the budget (0 when falsy) and the colour (random when falsy), and the rest is unchanged |
| CategoryList.AddPreservesUniqueness | backend/routes/users.js:110-126 | adding keeps names unique up to case and identifiers unique |
| CategoryList.Update | backend/routes/users.js:159-170 | an unknown category identifier gives "category not found"; otherwise only that entry changes: its name when a truthy name is sent, its budget when any budget is sent, its colour when a truthy colour is sent |
| CategoryList.UpdateMayDuplicateNames | backend/routes/users.js:168 | renaming can create two names equal up to case, which adding refuses |
| CategoryList.Delete | backend/routes/users.js:201-210 | an unknown category identifier gives "category not found"; otherwise exactly that entry is removed, the rest stays in order, and with unique identifiers no entry with it remains |
| CategoryList.RemoveAtSpec | backend/routes/users.js:210 | removing one entry keeps every entry with another identifier, and keeps every category named |
| CategoryList.AddThenDelete | backend/routes/users.js:122-126 | deleting the entry just added gives the list back |
| UserRoutes.GetProfile | backend/routes/users.js:7-21 | the intended profile answers "not found" exactly for an unknown account, and otherwise that account's view |
| UserRoutes.GetProfileAsWritten | backend/routes/users.js:18-21 | as written, the profile route never succeeds: an unknown account is "not found" and a found one is an internal error |
| UserRoutes.GetProfileFinding | backend/routes/users.js:20 | the two profile routes differ exactly when the account exists |
| UserRoutes.ProfileViolations | backend/routes/users.js:37-46 | a sent name fails when it is empty or longer than 50 after trimming; a sent currency fails when it is not one of the codes; unsent paths are not checked |
| UserRoutes.ApplyProfile | backend/routes/users.js:37-46 | a valid profile write keeps the account valid, writes the sent name (trimmed), currency and budget, keeps the unsent ones, and never touches email, password or categories |
| UserRoutes.SetProfile | backend/routes/users.js:37-53 | validators run before the lookup; an unknown account is "not found"; a valid write changes only that account and keeps emails unique |
| UserRoutes.Replace | backend/routes/users.js:37-46 | replacing an account by one with the same email keeps the collection well formed and the same set of accounts |
| UserRoutes.UpdateProfile | backend/routes/users.js:33-59 | the intended update answers with the updated account's view, or with the write's error |
| UserRoutes.UpdateProfileAsWritten | backend/routes/users.js:33-59 | as written, the update always answers with an error, yet whenever the write succeeds it is committed |
| UserRoutes.UpdateProfileFinding | backend/routes/users.js:58 | whenever the intended update succeeds, the update as written commits the same change and answers with an internal error |
| UserRoutes.UpdateProfileThenGet | backend/routes/users.js:33-59 | what a profile update answers is what a later profile get answers |
| UserRoutes.GetSettings | backend/routes/users.js:229-247 | settings are "not found" exactly for an unknown account, and otherwise that account's currency, budget and categories |
| UserRoutes.UpdateSettings | backend/routes/users.js:259-288 | an invalid currency is a validation error even for an unknown account; otherwise an unknown account is "not found"; a success keeps the name and answers with what a later settings get returns |
| UserRoutes.SettingsAreProfileWithoutName | backend/routes/users.js:263-271 | a settings update stores what a profile update without a name stores, and they succeed together |
| UserRoutes.ListCategories | backend/routes/users.js:71-85 | the category list is "not found" exactly for an unknown account, and otherwise that account's categories |
| UserRoutes.SaveCategories | backend/routes/users.js:128 | saving a category list changes only that account's categories, and a later list returns it |
| UserRoutes.AddCategory | backend/routes/users.js:97-134 | an unknown account is "not found"; otherwise the list add decides; a success changes only that account's categories, keeps the collection well formed, and answers with what a later list returns |
| UserRoutes.UpdateCategory | backend/routes/users.js:146-177 | an unknown account is "not found"; otherwise the list update decides; a success changes only that account's categories |
| UserRoutes.DeleteCategory | backend/routes/users.js:190-217 | an unknown account is "not found"; otherwise the list delete decides; a success changes only that account's categories |
| UserRoutes.AddThenDeleteCategory | backend/routes/users.js:190-217 | deleting the category just added restores the whole users collection |
| UserRoutes.DeleteAfterSave | backend/routes/users.js:210-211 | saving a list and then deleting the entry that brings back the stored list restores the collection |
| UserRoutes.DeleteAccount | backend/routes/users.js:300-314 | deleting an account is "not found" exactly for an unknown account; otherwise that account alone is removed and the transactions are untouched |
| UserRoutes.DeleteAccountOrphansTransactions | backend/routes/users.js:302 | after an account is deleted its profile is "not found", but its transactions remain, still owned by its identifier |
| Auth.Search | backend/routes/auth.js:30 | the lookup finds the first account, in identifier order, holding the email, and finds none exactly when no account below the bound holds it |
| Auth.FindByEmail | backend/routes/auth.js:30 | the lookup normalises the queried email like a stored one; it finds an account exactly when one holds that email, and that account is the only one |
| Auth.Register | backend/routes/auth.js:7-60 | a falsy name, email or password gives the presence error; then an email already held (in any letter case, or with blanks around it) is a duplicate; then schema violations give a validation error; otherwise exactly one account is added, under a new identifier, with the trimmed name, normalised email, the password, currency USD, budget 0 and no categories, answered without the password |
| Auth.Add | backend/routes/auth.js:39-43 | adding a valid account with a free email keeps the collection well formed |
| Auth.DuplicateEmailRefused | backend/routes/auth.js:30-36 | once an address is registered, registering it again in another letter case or with blanks around it is refused as a duplicate |
| Auth.Login | backend/routes/auth.js:72-125 | missing credentials give the presence error; an unknown email and a wrong password give the same error; with both credentials present, login succeeds exactly when some account holds that email and that password, and a success is that account's view |
| Auth.LoginIff | backend/routes/auth.js:93-108 | login succeeds exactly when both credentials are present and some account holds that email with exactly that password |
| Auth.RegisterThenLogin | backend/routes/auth.js:39-54 | right after registering, logging in with the same email and password answers the registered view |
| Auth.RegisterKeepsAccounts | backend/routes/auth.js:39-43 | registering changes no account already there |

## Left out

- HTTP and Express plumbing is not modelled: status codes, messages, JSON shapes, logging, and the check for a missing request body (`auth.js` lines 12-17 and 76-81). A route's outcome is a `Result`. The request body's fields are `Option`s, and a field that is not sent is `None`.
- The `createdAt` and `updatedAt` timestamps, and the `updatedAt` that the update routes write, are not modelled: no contract or report depends on them.
- Casting a malformed identifier throws a cast error, which gives a 500 answer. This is not modelled: identifiers are naturals, so every identifier is well formed.
- Request values of the wrong JavaScript type are not modelled: the types in the signatures rule them out. Examples are a number sent as a name, or a non-numeric page.
- `null` is not modelled: a field is either sent or not. Sending a `null` category budget would store null (`users.js` line 169).
- Trimming knows a fixed set of whitespace characters. Lower-casing folds ASCII letters only. Lengths count characters, not UTF-16 code units.
- Amounts are exact reals, not IEEE-754 doubles. Rounding in the `$sum` stages and in the savings-rate division is not modelled.
- The clock is a parameter, not modelled: `now` for a create's default date, and `Month` for the bounds of the current month. A day is taken as 86 400 000 ms, so a daylight-saving change on the last day is not modelled.
- The email pattern (`User.js` line 17) is not modelled; it is a parameter, `validEmail`.
- `Math.random` is not modelled; it is a parameter, `rand`, with `0 <= rand < 16777215`.
- The three stats pipelines run concurrently (`Promise.all`), so in the backend they may see different states of the store. This is not modelled: `ExpenseRoutes.DashboardStats` evaluates all three over one state.
- The database is free to order equal sort keys any way it likes, and need not order them the same way in two queries. The model does not capture this: `Sorting.Sort` keeps the input order among equal keys, so transactions with the same date come in creation order.
- ExpenseRoutes.List: among transactions with the same date the page contents rely on creation order; the backend does not promise that order.
- ExpenseRoutes.Recent: as for `ExpenseRoutes.List`, the order among equal dates is creation order.
- ExpenseRoutes.RecentIsFirstPage: holds because both views sort the same way; across two real queries it holds when the dates are distinct.
- ExpenseRoutes.PagesCoverAll: across separate page requests each transaction appears exactly once only when the dates are distinct, since the order of equal dates may change between requests.
- CategoryList.Delete: removes the first entry with the identifier, while the backend's `deleteOne` on the embedded entry pulls every entry with it. The two agree when identifiers are unique, as `CategoryList.AddPreservesUniqueness` keeps them for lists built by adding; account validity does not require unique identifiers, so a list with repeats is not excluded.
- ExpenseRoutes.Create: a date is a number of milliseconds, so only a numeric 0 is told apart as falsy. The epoch sent as a date string is truthy and would be stored as given, but the model cannot tell it from 0 and stores `now`.
- ExpenseRoutes.Update: a field the client leaves out is kept. This follows the default of stripping `undefined` keys from an update. Under a configuration that writes them as `null`, leaving a field out would clear it or fail validation; that configuration is not modelled.
- UserRoutes.SetProfile: a field the client leaves out is kept, for the same reason as `ExpenseRoutes.Update`.
- UserRoutes.UpdateSettings: a field the client leaves out is kept, for the same reason as `ExpenseRoutes.Update`.
- The monthly budget has no lower bound in the schema, so none is modelled.
- When a pushed category has an empty name, the backend's validation error names the path with the entry's index (`categories.N.name`). The model reports it as `categories.name`.
- The unique index on email is not modelled as a separate check. Registration checks for a duplicate before inserting, so the index's own error cannot happen in this single-threaded model. Two registrations racing each other are not modelled.
- A query on an email runs the email setters on the query value (lower-casing and trimming), as on a stored value. Under a configuration that does not run setters on queries, an address that differs only in letter case would pass the duplicate check and then fail at the unique index.

## Findings

| source | as written | input that shows it | evidently intended | confidence | as-written member | corrected member |
|---|---|---|---|---|---|---|
| backend/routes/users.js:20 | The profile routes call `user.getProfile()`, a method the account model never defines, so the call throws. GET answers 500 for every existing account. PUT commits the write and then answers 500. | any existing account id, e.g. `GET /profile/<id of a registered user>` | answer with the account's view without the password, as `auth.js` builds it by hand (its comment there avoids `getProfile()`) | high, not executed | UserRoutes.GetProfileAsWritten, UserRoutes.UpdateProfileAsWritten (shown by UserRoutes.GetProfileFinding and UserRoutes.UpdateProfileFinding) | UserRoutes.GetProfile, UserRoutes.UpdateProfile (with UserRoutes.UpdateProfileThenGet) |
| backend/models/Expense.js:82 | The month's end is computed as midnight at the start of the last day. The match uses `$lte` against it, so everything after that midnight on the last day is left out of the monthly summary. | an income dated 00:00:00.001 on the last day of the current month | every instant of the month counts, up to the last millisecond of its last day | high, not executed | Reports.MonthlySummaryAsWritten, ExpenseRoutes.DashboardStats (shown by Reports.LastDayDropped) | Reports.MonthlySummaryOf, ExpenseRoutes.DashboardStatsOf (agreeing with the written ones before the last day: Reports.WindowsAgreeBeforeLastDay, ExpenseRoutes.StatsAgreeBeforeLastDay) |

=== FILE: auth.dfy ===
/** The authentication router: registration with its presence check and
    duplicate-email check, and login by email and password. Passwords are
    stored and compared verbatim; both login failures answer alike. */
module Auth {
  import opened Common
  import opened UserModel

  // ---------------------------------------------------------------------
  // Looking an account up by email

  /** Some account already holds `email` once the email setters have run. */
  predicate EmailTaken(st: AccountStore, email: string) {
    exists id :: id in st.docs && st.docs[id].email == NormalizeEmail(email)
  }

  /** The first account, in id order below `n`, whose stored email is `email`. */
  function Search(docs: map<Id, Account>, email: string, n: nat): (r: Option<Id>)
    ensures r.Some? ==> r.value < n && r.value in docs && docs[r.value].email == email
    ensures r.Some? ==> forall j :: j in docs && j < r.value ==> docs[j].email != email
    ensures r.None? <==> forall id :: id in docs && id < n ==> docs[id].email != email
  {
    if n == 0 then None
    else
      match Search(docs, email, n - 1)
      case Some(i) => Some(i)
      case None => if n - 1 in docs && docs[n - 1].email == email then Some(n - 1) else None
  }

  /** `findOne({ email })`: the query value is lower-cased and trimmed like the
      stored one, and the first match in natural order is returned. */
  function FindByEmail(st: AccountStore, email: string): (r: Option<Id>)
    requires WfAccounts(st)
    ensures r.Some? ==> r.value in st.docs && st.docs[r.value].email == NormalizeEmail(email)
    ensures r.Some? <==> EmailTaken(st, email)
    ensures r.Some? ==> forall id :: id in st.docs && st.docs[id].email == NormalizeEmail(email) ==>
                                     id == r.value
  {
    Search(st.docs, NormalizeEmail(email), st.next)
  }

  // ---------------------------------------------------------------------
  // Registration

  datatype Registered = Registered(store: AccountStore, user: AccountView)

  /** The route's presence check: name, email and password must be truthy. */
  predicate RegisterFieldsPresent(name: Option<string>, email: Option<string>, password: Option<string>) {
    Truthy(name) && Truthy(email) && Truthy(password)
  }

  /** `POST /register`: presence check, duplicate check, then the schema's
      setters, validators and defaults; the new account is stored under the
      next id and answered without its password. `validEmail` is the schema's
      email pattern. */
  function Register(st: AccountStore, name: Option<string>, email: Option<string>,
                    password: Option<string>, validEmail: string -> bool): (r: Result<Registered>)
    requires WfAccounts(st)
    ensures !RegisterFieldsPresent(name, email, password) ==> r == Err(MissingFields)
    ensures RegisterFieldsPresent(name, email, password) && EmailTaken(st, email.value) ==>
              r == Err(DuplicateEmail)
    ensures RegisterFieldsPresent(name, email, password) && !EmailTaken(st, email.value)
            && AccountViolations(name.value, email.value, password.value, validEmail) != {} ==>
              r == Err(ValidationError(AccountViolations(name.value, email.value, password.value, validEmail)))
    ensures r.Ok? <==> && RegisterFieldsPresent(name, email, password)
                       && !EmailTaken(st, email.value)
                       && AccountViolations(name.value, email.value, password.value, validEmail) == {}
    ensures r.Ok? ==>
              var id := r.value.user.id;
              && WfAccounts(r.value.store)
              && id !in st.docs
              && id in r.value.store.docs
              && r.value.store.docs == st.docs[id := r.value.store.docs[id]]
              && r.value.store.docs[id].name == Trim(name.value)
              && r.value.store.docs[id].email == NormalizeEmail(email.value)
              && r.value.store.docs[id].password == password.value
              && r.value.store.docs[id].currency == DefaultCurrency
              && r.value.store.docs[id].monthlyBudget == 0.0
              && r.value.store.docs[id].categories == []
              && r.value.user == View(id, r.value.store.docs[id])
  {
    if !RegisterFieldsPresent(name, email, password) then Err(MissingFields)
    else if FindByEmail(st, email.value).Some? then Err(DuplicateEmail)
    else
      match NewAccount(name.value, email.value, password.value, validEmail)
      case Err(e) => Err(e)
      case Ok(a) => Ok(Registered(Add(st, a), View(st.next, a)))
  }

  /** Stores a valid account whose email is free under the next id. */
  function Add(st: AccountStore, a: Account): (r: AccountStore)
    requires WfAccounts(st) && ValidAccount(a)
    requires forall id :: id in st.docs ==> st.docs[id].email != a.email
    ensures WfAccounts(r) && r.next == st.next + 1 && st.next !in st.docs
    ensures r.docs == st.docs[st.next := a]
  {
    assert AllValidBelow(st.docs, st.next + 1);
    AllValidBelowUpdate(st.docs, st.next + 1, st.next, a);
    UniqueEmailsUpdate(st.docs, st.next, a);
    AccountStore(st.docs[st.next := a], st.next + 1)
  }

  /** The same address in another letter case, or with surrounding blanks, is
      refused once it is registered. */
  lemma DuplicateEmailRefused(st: AccountStore, name: Option<string>, email: Option<string>,
                              password: Option<string>, validEmail: string -> bool,
                              name': Option<string>, email': Option<string>, password': Option<string>)
    requires WfAccounts(st)
    requires Register(st, name, email, password, validEmail).Ok?
    requires RegisterFieldsPresent(name', email', password')
    requires NormalizeEmail(email'.value) == NormalizeEmail(email.value)
    ensures var s := Register(st, name, email, password, validEmail).value.store;
            Register(s, name', email', password', validEmail) == Err(DuplicateEmail)
  {
    var r := Register(st, name, email, password, validEmail).value;
    assert r.store.docs[r.user.id].email == NormalizeEmail(email'.value);
  }

  // ---------------------------------------------------------------------
  // Login

  /** `POST /login`: presence check, lookup by email, then a verbatim password
      comparison. An unknown email and a wrong password give the same error. */
  function Login(st: AccountStore, email: Option<string>, password: Option<string>)
    : (r: Result<AccountView>)
    requires WfAccounts(st)
    ensures !(Truthy(email) && Truthy(password)) ==> r == Err(MissingFields)
    ensures Truthy(email) && Truthy(password) && !EmailTaken(st, email.value) ==>
              r == Err(InvalidCredentials)
    ensures Truthy(email) && Truthy(password) ==>
              forall id :: id in st.docs && st.docs[id].email == NormalizeEmail(email.value)
                           && st.docs[id].password != password.value ==>
                r == Err(InvalidCredentials)
    ensures Truthy(email) && Truthy(password) ==>
              (r.Ok? <==> exists id :: id in st.docs && st.docs[id].email == NormalizeEmail(email.value)
                                                    && st.docs[id].password == password.value)
    ensures r.Err? ==> r.error in {MissingFields, InvalidCredentials}
    ensures r.Ok? ==> && r.value.id in st.docs
                      && st.docs[r.value.id].email == NormalizeEmail(email.value)
                      && st.docs[r.value.id].password == password.value
                      && r.value == View(r.value.id, st.docs[r.value.id])
  {
    if !(Truthy(email) && Truthy(password)) then Err(MissingFields)
    else
      match FindByEmail(st, email.value)
      case None => Err(InvalidCredentials)
      case Some(id) =>
        if st.docs[id].password != password.value then Err(InvalidCredentials)
        else Ok(View(id, st.docs[id]))
  }

  /** Login succeeds exactly when some account holds the email and the
      password. */
  lemma LoginIff(st: AccountStore, email: Option<string>, password: Option<string>)
    requires WfAccounts(st)
    ensures Login(st, email, password).Ok? <==>
            && Truthy(email) && Truthy(password)
            && exists id :: id in st.docs && st.docs[id].email == NormalizeEmail(email.value)
                                          && st.docs[id].password == password.value
  {
    if Truthy(email) && Truthy(password) &&
       exists id :: id in st.docs && st.docs[id].email == NormalizeEmail(email.value)
                                  && st.docs[id].password == password.value
    {
      var id :| id in st.docs && st.docs[id].email == NormalizeEmail(email.value)
                              && st.docs[id].password == password.value;
      assert FindByEmail(st, email.value) == Some(id);
    }
  }

  /** Right after registering, the same email and password log in and answer
      the registered view. */
  lemma RegisterThenLogin(st: AccountStore, name: Option<string>, email: Option<string>,
                          password: Option<string>, validEmail: string -> bool)
    requires WfAccounts(st)
    requires Register(st, name, email, password, validEmail).Ok?
    ensures var r := Register(st, name, email, password, validEmail).value;
            Login(r.store, email, password) == Ok(r.user)
  {
    var r := Register(st, name, email, password, validEmail).value;
    assert FindByEmail(r.store, email.value) == Some(r.user.id);
  }

  /** Registering keeps every account already there. */
  lemma RegisterKeepsAccounts(st: AccountStore, name: Option<string>, email: Option<string>,
                              password: Option<string>, validEmail: string -> bool)
    requires WfAccounts(st)
    requires Register(st, name, email, password, validEmail).Ok?
    ensures var s := Register(st, name, email, password, validEmail).value.store;
            forall id :: id in st.docs ==> id in s.docs && s.docs[id] == st.docs[id]
  {
    var r := Register(st, name, email, password, validEmail).value;
    assert r.store.docs == st.docs[r.user.id := r.store.docs[r.user.id]];
  }
}

=== FILE: category_list.dfy ===
/** The list of budgeting categories embedded in an account: add with its
    case-insensitive duplicate check and defaults, partial update by id,
    delete by id, and the random colour a new category gets. */
module CategoryList {
  import opened Common
  import opened UserModel

  // ---------------------------------------------------------------------
  // Random colours: '#' followed by `toString(16)` of a random integer

  /** `Math.floor(Math.random() * 16777215)` is below this bound. */
  const ColorRange := 16777215

  const HexDigits := "0123456789abcdef"

  predicate IsHexDigit(c: char) {
    c in HexDigits
  }

  function DigitValue(c: char): (d: nat)
    requires IsHexDigit(c)
    ensures d < 16 && HexDigits[d] == c
  {
    if '0' <= c <= '9' then c as int - '0' as int else c as int - 'a' as int + 10
  }

  function Pow16(k: nat): nat {
    if k == 0 then 1 else 16 * Pow16(k - 1)
  }

  /** `n.toString(16)`: lower-case hexadecimal, no leading zeros. */
  function Hex(n: nat): (r: string)
    ensures |r| >= 1
    ensures forall i :: 0 <= i < |r| ==> IsHexDigit(r[i])
    ensures |r| > 1 ==> r[0] != '0'
  {
    if n < 16 then [HexDigits[n]] else Hex(n / 16) + [HexDigits[n % 16]]
  }

  /** Reads a hexadecimal numeral, most significant digit first. */
  function ParseHex(s: string): nat
    requires forall i :: 0 <= i < |s| ==> IsHexDigit(s[i])
  {
    if s == [] then 0 else 16 * ParseHex(s[..|s| - 1]) + DigitValue(s[|s| - 1])
  }

  /** Reading back what `Hex` wrote gives the number. */
  lemma {:induction false} HexRoundTrip(n: nat)
    ensures ParseHex(Hex(n)) == n
  {
    if n >= 16 {
      HexRoundTrip(n / 16);
      var r := Hex(n);
      assert r[..|r| - 1] == Hex(n / 16);
    }
  }

  /** A number below 16^k needs at most k hexadecimal digits. */
  lemma {:induction false} HexLength(n: nat, k: nat)
    requires k >= 1 && n < Pow16(k)
    ensures |Hex(n)| <= k
  {
    if n >= 16 {
      assert k >= 2;
      assert n / 16 < Pow16(k - 1);
      HexLength(n / 16, k - 1);
    }
  }

  /** The colour given to a category added without one: '#' and one to six
      hexadecimal digits of `rand`, not padded with zeros. */
  function RandomColor(rand: nat): (c: string)
    requires rand < ColorRange
    ensures 2 <= |c| <= 7 && c[0] == '#'
    ensures forall i :: 1 <= i < |c| ==> IsHexDigit(c[i])
    ensures ParseHex(c[1..]) == rand
    ensures |c| > 2 ==> c[1] != '0'
  {
    HexLength(rand, 6);
    HexRoundTrip(rand);
    var c := "#" + Hex(rand);
    assert c[1..] == Hex(rand);
    c
  }

  // ---------------------------------------------------------------------
  // Lookups

  /** No two categories share a name up to letter case. */
  predicate UniqueNames(cs: seq<Category>) {
    forall i, j :: 0 <= i < j < |cs| ==> !SameFolded(cs[i].name, cs[j].name)
  }

  predicate UniqueIds(cs: seq<Category>) {
    forall i, j :: 0 <= i < j < |cs| ==> cs[i].id != cs[j].id
  }

  predicate HasName(cs: seq<Category>, name: string) {
    exists i :: 0 <= i < |cs| && SameFolded(cs[i].name, name)
  }

  /** `categories.find(cat => cat.name.toLowerCase() === name.toLowerCase())`. */
  function FindByName(cs: seq<Category>, name: string): (r: Option<nat>)
    ensures r.Some? ==> r.value < |cs| && SameFolded(cs[r.value].name, name)
    ensures r.None? <==> !HasName(cs, name)
  {
    if cs == [] then None
    else if SameFolded(cs[0].name, name) then Some(0)
    else
      var rest := FindByName(cs[1..], name);
      assert HasName(cs, name) ==> HasName(cs[1..], name) by {
        if HasName(cs, name) {
          var i :| 0 <= i < |cs| && SameFolded(cs[i].name, name);
          assert cs[1..][i - 1] == cs[i];
        }
      }
      if rest.Some? then Some(rest.value + 1) else None
  }

  /** `categories.id(categoryId)`: the position of the category with that id. */
  function IndexOf(cs: seq<Category>, id: Id): (r: Option<nat>)
    ensures r.Some? ==> r.value < |cs| && cs[r.value].id == id
    ensures r.Some? ==> forall k :: 0 <= k < r.value ==> cs[k].id != id
    ensures r.None? <==> forall k :: 0 <= k < |cs| ==> cs[k].id != id
  {
    if cs == [] then None
    else if cs[0].id == id then Some(0)
    else
      var rest := IndexOf(cs[1..], id);
      if rest.Some? then Some(rest.value + 1) else None
  }

  /** An id no category in the list carries, standing in for a new object id. */
  function FreshId(cs: seq<Category>): (id: Id)
    ensures forall k :: 0 <= k < |cs| ==> cs[k].id < id
  {
    if cs == [] then 0
    else
      var rest := FreshId(cs[1..]);
      if cs[0].id < rest then rest else cs[0].id + 1
  }

  // ---------------------------------------------------------------------
  // Operations

  /** The path reported when a category name fails its `required` validator. */
  const NamePath := "categories.name"

  /** `POST /:id/categories` on the list. A missing name makes the duplicate
      check throw as soon as there is an entry to compare with; on an empty
      list the pushed entry fails validation instead. An empty name passes
      the duplicate check and then fails validation. */
  function Add(cs: seq<Category>, name: Option<string>, budget: Option<real>,
               color: Option<string>, rand: nat): (r: Result<seq<Category>>)
    requires rand < ColorRange
    ensures name.None? && cs != [] ==> r == Err(InternalError)
    ensures name.None? && cs == [] ==> r == Err(ValidationError({NamePath}))
    ensures name.Some? && HasName(cs, name.value) ==> r == Err(DuplicateCategory)
    ensures name.Some? && !HasName(cs, name.value) && name.value == "" ==>
              r == Err(ValidationError({NamePath}))
    ensures r.Ok? <==> Truthy(name) && !HasName(cs, name.value)
    ensures r.Ok? ==>
              && |r.value| == |cs| + 1
              && r.value[..|cs|] == cs
              && r.value[|cs|].name == name.value
              && r.value[|cs|].budget == (if TruthyNumber(budget) then budget.value else 0.0)
              && r.value[|cs|].color == (if Truthy(color) then color.value else RandomColor(rand))
              && forall k :: 0 <= k < |cs| ==> cs[k].id != r.value[|cs|].id
    ensures r.Ok? && NamedCategories(cs) ==> NamedCategories(r.value)
  {
    if name.None? then
      if cs != [] then Err(InternalError) else Err(ValidationError({NamePath}))
    else if FindByName(cs, name.value).Some? then Err(DuplicateCategory)
    else if name.value == "" then Err(ValidationError({NamePath}))
    else
      var c := Category(FreshId(cs),
                        name.value,
                        if TruthyNumber(budget) then budget.value else 0.0,
                        if Truthy(color) then color.value else RandomColor(rand));
      assert (cs + [c])[..|cs|] == cs;
      Ok(cs + [c])
  }

  /** Adding keeps names unique up to case, and ids unique. */
  lemma AddPreservesUniqueness(cs: seq<Category>, name: Option<string>, budget: Option<real>,
                               color: Option<string>, rand: nat)
    requires rand < ColorRange
    requires UniqueNames(cs) && UniqueIds(cs)
    requires Add(cs, name, budget, color, rand).Ok?
    ensures UniqueNames(Add(cs, name, budget, color, rand).value)
    ensures UniqueIds(Add(cs, name, budget, color, rand).value)
  {
    var r := Add(cs, name, budget, color, rand).value;
    forall i, j | 0 <= i < j < |r|
      ensures !SameFolded(r[i].name, r[j].name) && r[i].id != r[j].id
    {
      assert r[i] == cs[i];
      if j < |cs| {
        assert r[j] == cs[j];
      }
    }
  }

  /** `PUT /:id/categories/:categoryId` on the list: the name changes only to
      a truthy name, the budget whenever one is given, the colour only to a
      truthy colour. Uniqueness of names is not checked again. */
  function Update(cs: seq<Category>, id: Id, name: Option<string>, budget: Option<real>,
                  color: Option<string>): (r: Result<seq<Category>>)
    ensures r.Err? <==> forall k :: 0 <= k < |cs| ==> cs[k].id != id
    ensures r.Err? ==> r.error == CategoryNotFound
    ensures r.Ok? ==>
              var i := IndexOf(cs, id).value;
              && |r.value| == |cs|
              && (forall k :: 0 <= k < |cs| && k != i ==> r.value[k] == cs[k])
              && r.value[i].id == id
              && r.value[i].name == (if Truthy(name) then name.value else cs[i].name)
              && r.value[i].budget == (if budget.Some? then budget.value else cs[i].budget)
              && r.value[i].color == (if Truthy(color) then color.value else cs[i].color)
    ensures r.Ok? && NamedCategories(cs) ==> NamedCategories(r.value)
  {
    match IndexOf(cs, id)
    case None => Err(CategoryNotFound)
    case Some(i) =>
      var c := cs[i];
      var c' := c.(name := if Truthy(name) then name.value else c.name,
                   budget := if budget.Some? then budget.value else c.budget,
                   color := if Truthy(color) then color.value else c.color);
      Ok(cs[i := c'])
  }

  /** Update can make two names equal up to case, which Add would refuse:
      renaming "Travel" to "food" next to "Food" succeeds. */
  lemma UpdateMayDuplicateNames()
    ensures var cs := [Category(0, "Food", 0.0, DefaultColor), Category(1, "Travel", 0.0, DefaultColor)];
            && UniqueNames(cs)
            && Update(cs, 1, Some("food"), None, None).Ok?
            && !UniqueNames(Update(cs, 1, Some("food"), None, None).value)
            && Add(cs, Some("food"), None, None, 0) == Err(DuplicateCategory)
  {
    var cs := [Category(0, "Food", 0.0, DefaultColor), Category(1, "Travel", 0.0, DefaultColor)];
    assert ToLower("Food") == "food";
    assert ToLower("Travel") == "travel";
    assert ToLower("food") == "food";
    assert SameFolded(cs[0].name, "food");
    assert IndexOf(cs[1..], 1) == Some(0);
    assert IndexOf(cs, 1) == Some(1);
  }

  /** `DELETE /:id/categories/:categoryId` on the list: removes the matching
      entry and keeps the others in order. */
  function Delete(cs: seq<Category>, id: Id): (r: Result<seq<Category>>)
    ensures r.Err? <==> forall k :: 0 <= k < |cs| ==> cs[k].id != id
    ensures r.Err? ==> r.error == CategoryNotFound
    ensures r.Ok? ==>
              var i := IndexOf(cs, id).value;
              r.value == cs[..i] + cs[i + 1..] && |r.value| == |cs| - 1
    ensures r.Ok? && UniqueIds(cs) ==>
              && (forall k :: 0 <= k < |r.value| ==> r.value[k].id != id)
              && (forall c :: c in cs && c.id != id ==> c in r.value)
    ensures r.Ok? && NamedCategories(cs) ==> NamedCategories(r.value)
  {
    match IndexOf(cs, id)
    case None => Err(CategoryNotFound)
    case Some(i) =>
      RemoveAtSpec(cs, i);
      Ok(RemoveAt(cs, i))
  }

  /** The list without its `i`-th entry. */
  function RemoveAt(cs: seq<Category>, i: nat): seq<Category>
    requires i < |cs|
  {
    cs[..i] + cs[i + 1..]
  }

  lemma RemoveAtSpec(cs: seq<Category>, i: nat)
    requires i < |cs|
    ensures UniqueIds(cs) ==>
              && (forall k :: 0 <= k < |RemoveAt(cs, i)| ==> RemoveAt(cs, i)[k].id != cs[i].id)
              && (forall c :: c in cs && c.id != cs[i].id ==> c in RemoveAt(cs, i))
    ensures NamedCategories(cs) ==> NamedCategories(RemoveAt(cs, i))
  {
    var r := RemoveAt(cs, i);
    assert forall k :: 0 <= k < |r| ==> r[k] == if k < i then cs[k] else cs[k + 1];
    forall c | c in cs && c.id != cs[i].id ensures c in r {
      var k :| 0 <= k < |cs| && cs[k] == c;
      if k < i { assert r[k] == c; } else { assert r[k - 1] == c; }
    }
  }

  /** Deleting the entry just added gives the list back. */
  lemma AddThenDelete(cs: seq<Category>, name: Option<string>, budget: Option<real>,
                      color: Option<string>, rand: nat)
    requires rand < ColorRange
    requires Add(cs, name, budget, color, rand).Ok?
    ensures var r := Add(cs, name, budget, color, rand).value;
            |r| == |cs| + 1 && Delete(r, r[|cs|].id) == Ok(cs)
  {
    var r := Add(cs, name, budget, color, rand).value;
    var id := r[|cs|].id;
    var i := IndexOf(r, id).value;
    assert RemoveAt(r, |cs|) == r[..|cs|];
  }
}

=== FILE: common.dfy ===
/** Shared vocabulary of the backend model: identifiers, optional request
    fields, the outcome of a store operation, and the two string setters
    (`trim`, `lowercase`) that the schemas apply before validating. */
module Common {

  /** Document identifiers. Object ids are opaque in the backend; here they are
      naturals handed out in creation order. */
  type Id = nat

  /** A request-body field: `None` when the client did not send it. */
  datatype Option<T> = None | Some(value: T)

  /** The error kinds an operation reports instead of a result. */
  datatype Error =
    | MissingFields                       // a route's own presence check failed
    | ValidationError(paths: set<string>) // the schema rejected these paths
    | DuplicateEmail
    | DuplicateCategory
    | NotFound
    | CategoryNotFound
    | InvalidCredentials
    | InternalError                       // an exception inside the handler

  datatype Result<T> = Ok(value: T) | Err(error: Error)

  /** JavaScript truthiness of an optional string: absent and "" are falsy. */
  predicate Truthy(s: Option<string>) {
    s.Some? && s.value != ""
  }

  /** JavaScript truthiness of an optional number: absent and 0 are falsy. */
  predicate TruthyNumber(x: Option<real>) {
    x.Some? && x.value != 0.0
  }

  /** The characters `String.prototype.trim` removes that this model knows of. */
  predicate IsWhitespace(c: char) {
    c == ' ' || c == '\t' || c == '\n' || c == '\r' || c == '\U{000B}'
    || c == '\U{000C}' || c == '\U{00A0}' || c == '\U{FEFF}'
  }

  predicate AllWhitespace(s: string) {
    forall i :: 0 <= i < |s| ==> IsWhitespace(s[i])
  }

  /** The number of whitespace characters `s` starts with. */
  function LeadingSpaces(s: string): (n: nat)
    ensures n <= |s|
  {
    if |s| > 0 && IsWhitespace(s[0]) then 1 + LeadingSpaces(s[1..]) else 0
  }

  /** The number of whitespace characters `s` ends with. */
  function TrailingSpaces(s: string): (n: nat)
    ensures n <= |s|
  {
    if |s| > 0 && IsWhitespace(s[|s| - 1]) then 1 + TrailingSpaces(s[..|s| - 1]) else 0
  }

  /** The `trim` setter and `String.prototype.trim`; `TrimSpec` states what
      it keeps. */
  function Trim(s: string): (r: string)
    ensures |r| <= |s|
  {
    var rest := s[LeadingSpaces(s)..];
    rest[..|rest| - TrailingSpaces(rest)]
  }

  lemma {:induction false} LeadingSpacesSpec(s: string)
    ensures AllWhitespace(s[..LeadingSpaces(s)])
    ensures LeadingSpaces(s) == |s| || !IsWhitespace(s[LeadingSpaces(s)])
  {
    if |s| > 0 && IsWhitespace(s[0]) {
      LeadingSpacesSpec(s[1..]);
      assert s[..LeadingSpaces(s)] == [s[0]] + s[1..][..LeadingSpaces(s[1..])];
    }
  }

  lemma {:induction false} TrailingSpacesSpec(s: string)
    ensures AllWhitespace(s[|s| - TrailingSpaces(s)..])
    ensures TrailingSpaces(s) == |s| || !IsWhitespace(s[|s| - TrailingSpaces(s) - 1])
  {
    if |s| > 0 && IsWhitespace(s[|s| - 1]) {
      var p := s[..|s| - 1];
      TrailingSpacesSpec(p);
      var n := TrailingSpaces(s);
      assert n == 1 + TrailingSpaces(p);
      var tail := s[|s| - n..];
      forall k | 0 <= k < |tail| ensures IsWhitespace(tail[k]) {
        if k < |tail| - 1 {
          assert tail[k] == p[|p| - TrailingSpaces(p)..][k];
        }
      }
      if n < |s| {
        assert s[|s| - n - 1] == p[|p| - TrailingSpaces(p) - 1];
      }
    }
  }

  /** What trimming keeps: one contiguous slice of `s` that neither starts nor
      ends with whitespace, everything cut off on either side being whitespace. */
  lemma TrimSpec(s: string)
    ensures var i := LeadingSpaces(s);
            var r := Trim(s);
            && i + |r| <= |s|
            && r == s[i..i + |r|]
            && AllWhitespace(s[..i])
            && AllWhitespace(s[i + |r|..])
            && (r == [] || (!IsWhitespace(r[0]) && !IsWhitespace(r[|r| - 1])))
  {
    var i := LeadingSpaces(s);
    var rest := s[i..];
    var r := Trim(s);
    LeadingSpacesSpec(s);
    TrailingSpacesSpec(rest);
    assert r == rest[..|r|];
    assert s[i + |r|..] == rest[|r|..];
    if r != [] {
      assert r[0] == s[i];
    }
  }

  /** Trimming an already trimmed string changes nothing. */
  lemma TrimIdempotent(s: string)
    ensures Trim(Trim(s)) == Trim(s)
  {
    var t := Trim(s);
    TrimSpec(s);
    if t != [] {
      assert LeadingSpaces(t) == 0;
      assert TrailingSpaces(t) == 0;
    }
  }

  function LowerChar(c: char): char {
    if 'A' <= c <= 'Z' then (c as int + 32) as char else c
  }

  /** The `lowercase` setter and `toLowerCase()`, on ASCII letters. */
  function ToLower(s: string): (r: string)
    ensures |r| == |s|
    // Each character is folded on its own; this clause is the definition.
    ensures forall i :: 0 <= i < |s| ==> r[i] == LowerChar(s[i])
    ensures forall i :: 0 <= i < |s| ==> !('A' <= r[i] <= 'Z')
  {
    seq(|s|, i requires 0 <= i < |s| => LowerChar(s[i]))
  }

  lemma ToLowerIdempotent(s: string)
    ensures ToLower(ToLower(s)) == ToLower(s)
  {
  }

  /** Case-insensitive equality of two names, as `a.toLowerCase() === b.toLowerCase()`. */
  predicate SameFolded(a: string, b: string) {
    ToLower(a) == ToLower(b)
  }
}

=== FILE: expense_model.dfy ===
/** The transaction schema (an "expense" document, which records income as
    well): field constraints, the enumerations, the `trim` setter on the
    description, the default date, and what a write of some of its paths
    does to a stored transaction. */
module ExpenseModel {
  import opened Common

  datatype ExpenseCategory =
    | Food | Transportation | Entertainment | Utilities
    | Shopping | Healthcare | Income | Other

  /** The `type` field: income or expense. Nothing links it to the category. */
  datatype Kind = Income | Expense

  const MaxDescriptionLength := 100
  const MinAmount: real := 0.01
  const MaxNotesLength := 500

  function CategoryName(c: ExpenseCategory): string {
    match c
    case Food => "Food"
    case Transportation => "Transportation"
    case Entertainment => "Entertainment"
    case Utilities => "Utilities"
    case Shopping => "Shopping"
    case Healthcare => "Healthcare"
    case Income => "Income"
    case Other => "Other"
  }

  /** The category enum validator: accepts exactly the eight names. */
  function ParseCategory(s: string): (r: Option<ExpenseCategory>)
    ensures r.Some? ==> CategoryName(r.value) == s
    ensures r.None? ==> forall c :: CategoryName(c) != s
  {
    if s == "Food" then Some(Food)
    else if s == "Transportation" then Some(Transportation)
    else if s == "Entertainment" then Some(Entertainment)
    else if s == "Utilities" then Some(Utilities)
    else if s == "Shopping" then Some(Shopping)
    else if s == "Healthcare" then Some(Healthcare)
    else if s == "Income" then Some(ExpenseCategory.Income)
    else if s == "Other" then Some(Other)
    else None
  }

  lemma CategoryNameRoundTrip(c: ExpenseCategory)
    ensures ParseCategory(CategoryName(c)) == Some(c)
  {
  }

  function KindName(k: Kind): string {
    match k
    case Income => "income"
    case Expense => "expense"
  }

  /** The `type` enum validator: accepts exactly "income" and "expense". */
  function ParseKind(s: string): (r: Option<Kind>)
    ensures r.Some? ==> KindName(r.value) == s
    ensures r.None? ==> forall k :: KindName(k) != s
  {
    if s == "income" then Some(Kind.Income)
    else if s == "expense" then Some(Expense)
    else None
  }

  lemma KindNameRoundTrip(k: Kind)
    ensures ParseKind(KindName(k)) == Some(k)
  {
  }

  /** A stored transaction. Its id is the key it is stored under. */
  datatype Transaction = Transaction(
    userId: Id,
    description: string,
    amount: real,
    category: ExpenseCategory,
    kind: Kind,
    date: int,
    notes: Option<string>)

  predicate DescriptionOk(d: string) {
    0 < |d| <= MaxDescriptionLength
  }

  predicate NotesOk(n: string) {
    |n| <= MaxNotesLength
  }

  /** Every constraint the schema places on a stored transaction. */
  predicate Valid(t: Transaction) {
    && DescriptionOk(t.description)
    && Trim(t.description) == t.description
    && t.amount >= MinAmount
    && (t.notes.Some? ==> NotesOk(t.notes.value))
  }

  /** The paths a create or an update writes, as sent by the client.
      `None` means the path is not written. */
  datatype Fields = Fields(
    description: Option<string>,
    amount: Option<real>,
    category: Option<string>,
    kind: Option<string>,
    date: Option<int>,
    notes: Option<string>)

  /** One path's verdict: a written value must pass its check; an unwritten
      path fails only when it is required and the document is being created. */
  function PathCheck(path: string, written: bool, ok: bool, required: bool): (r: set<string>)
    ensures r <= {path}
    ensures path in r <==> if written then !ok else required
  {
    if written then (if ok then {} else {path})
    else if required then {path} else {}
  }

  /** The schema's validators over the written paths, after the `trim`
      setter. `creating` is true for a new document, where required paths
      must be present; an update validates only the paths it writes. */
  function Violations(f: Fields, creating: bool): (v: set<string>)
    ensures v <= {"description", "amount", "category", "type", "notes"}
  {
    PathCheck("description", f.description.Some?,
              f.description.Some? && DescriptionOk(Trim(f.description.value)), creating)
    + PathCheck("amount", f.amount.Some?, f.amount.Some? && f.amount.value >= MinAmount, creating)
    + PathCheck("category", f.category.Some?,
                f.category.Some? && ParseCategory(f.category.value).Some?, creating)
    + PathCheck("type", f.kind.Some?, f.kind.Some? && ParseKind(f.kind.value).Some?, creating)
    + PathCheck("notes", f.notes.Some?, f.notes.Some? && NotesOk(f.notes.value), false)
  }

  /** Each path fails exactly when its written value breaks its constraint,
      or, on a create, when a required path is not written. */
  lemma ViolationsPaths(f: Fields, creating: bool)
    ensures var v := Violations(f, creating);
            && ("description" in v <==>
                  if f.description.Some? then !DescriptionOk(Trim(f.description.value)) else creating)
            && ("amount" in v <==> if f.amount.Some? then f.amount.value < MinAmount else creating)
            && ("category" in v <==> if f.category.Some? then ParseCategory(f.category.value).None? else creating)
            && ("type" in v <==> if f.kind.Some? then ParseKind(f.kind.value).None? else creating)
            && ("notes" in v <==> f.notes.Some? && !NotesOk(f.notes.value))
  {
    assert |"description"| == 11 && |"amount"| == 6 && |"category"| == 8 && |"type"| == 4 && |"notes"| == 5;
  }

  /** `t` holds every path that `f` writes, as the schema stores it. */
  predicate Written(t: Transaction, f: Fields) {
    && (f.description.Some? ==> t.description == Trim(f.description.value))
    && (f.amount.Some? ==> t.amount == f.amount.value)
    && (f.category.Some? ==> CategoryName(t.category) == f.category.value)
    && (f.kind.Some? ==> KindName(t.kind) == f.kind.value)
    && (f.date.Some? ==> t.date == f.date.value)
    && (f.notes.Some? ==> t.notes == f.notes)
  }

  /** `r` keeps every path of `t` that `f` does not write. */
  predicate Kept(t: Transaction, r: Transaction, f: Fields) {
    && r.userId == t.userId
    && (f.description.None? ==> r.description == t.description)
    && (f.amount.None? ==> r.amount == t.amount)
    && (f.category.None? ==> r.category == t.category)
    && (f.kind.None? ==> r.kind == t.kind)
    && (f.date.None? ==> r.date == t.date)
    && (f.notes.None? ==> r.notes == t.notes)
  }

  /** The document a create stores once validation passed; the date defaults
      to `now`. */
  function New(userId: Id, f: Fields, now: int): (t: Transaction)
    requires Violations(f, true) == {}
    ensures Valid(t) && Written(t, f) && t.userId == userId
    ensures f.date.None? ==> t.date == now
    ensures f.notes.None? ==> t.notes.None?
  {
    TrimIdempotent(f.description.value);
    Transaction(userId, Trim(f.description.value), f.amount.value,
                ParseCategory(f.category.value).value, ParseKind(f.kind.value).value,
                if f.date.Some? then f.date.value else now, f.notes)
  }

  /** The document after an update that passed validation. A path the
      update does not write keeps its stored value. */
  function Apply(t: Transaction, f: Fields): (r: Transaction)
    requires Violations(f, false) == {}
    requires Valid(t)
    ensures Valid(r) && Written(r, f) && Kept(t, r, f)
  {
    var description :=
      if f.description.Some? then
        TrimIdempotent(f.description.value);
        Trim(f.description.value)
      else t.description;
    Transaction(
      t.userId,
      description,
      if f.amount.Some? then f.amount.value else t.amount,
      if f.category.Some? then ParseCategory(f.category.value).value else t.category,
      if f.kind.Some? then ParseKind(f.kind.value).value else t.kind,
      if f.date.Some? then f.date.value else t.date,
      if f.notes.Some? then f.notes else t.notes)
  }

  /** Every path of a stored transaction, as a client would send it back. */
  function AllFields(t: Transaction): Fields {
    Fields(Some(t.description), Some(t.amount), Some(CategoryName(t.category)),
           Some(KindName(t.kind)), Some(t.date), t.notes)
  }

  /** The schema accepts a transaction exactly when it is `Valid` up to the
      trimming of its description, and writing it back rebuilds it unchanged. */
  lemma ValidRoundTrip(t: Transaction, now: int)
    ensures Violations(AllFields(t), true) == {} <==>
            (DescriptionOk(Trim(t.description)) && t.amount >= MinAmount
             && (t.notes.Some? ==> NotesOk(t.notes.value)))
    ensures Valid(t) ==> Violations(AllFields(t), true) == {} && New(t.userId, AllFields(t), now) == t
  {
    CategoryNameRoundTrip(t.category);
    KindNameRoundTrip(t.kind);
    var f := AllFields(t);
    assert PathCheck("category", true, true, true) == {};
    assert PathCheck("type", true, true, true) == {};
    assert Violations(f, true) ==
      PathCheck("description", true, DescriptionOk(Trim(t.description)), true)
      + PathCheck("amount", true, t.amount >= MinAmount, true)
      + PathCheck("notes", f.notes.Some?, f.notes.Some? && NotesOk(f.notes.value), false);
  }

  /** Sending back every path of a valid transaction overwrites the stored
      one with it, except the owner and, when the sent transaction has no
      notes, the stored notes: an absent path cannot clear a field. */
  lemma ApplyAllFields(t: Transaction, t': Transaction)
    requires Valid(t) && Valid(t')
    ensures Violations(AllFields(t'), false) == {}
    ensures Apply(t, AllFields(t')) ==
            t'.(userId := t.userId, notes := if t'.notes.Some? then t'.notes else t.notes)
  {
    ValidRoundTrip(t', 0);
    var f := AllFields(t');
    assert Violations(f, false) == {} by {
      assert Violations(f, false) <= Violations(f, true);
    }
    CategoryNameRoundTrip(t'.category);
    KindNameRoundTrip(t'.kind);
    var r := Apply(t, f);
    assert r.description == t'.description;
    assert r.category == t'.category;
    assert r.kind == t'.kind;
  }

  /** Category and type are independent: an expense may carry the `Income`
      category and an income any expense category. */
  lemma CategoryIndependentOfKind(c: ExpenseCategory, k: Kind)
    ensures Valid(Transaction(0, "x", MinAmount, c, k, 0, None))
  {
    assert LeadingSpaces("x") == 0;
    assert TrailingSpaces("x") == 0;
  }
}

=== FILE: expense_routes.dfy ===
/** The transaction collection and the operations of the live transaction
    router: create with its presence check and default date, get, update of
    the six writable paths, delete, the paginated list, the five most recent,
    and the dashboard statistics. */
module ExpenseRoutes {
  import opened Common
  import opened ExpenseModel
  import opened Reports
  import Sorting

  /** The stored transactions by id, and the id the next create receives. */
  datatype TxStore = TxStore(docs: map<Id, Transaction>, next: Id)

  /** Every id was handed out before, and every stored document is valid. */
  predicate Wf(st: TxStore) {
    forall id :: id in st.docs ==> id < st.next && Valid(st.docs[id])
  }

  /** The ids below `n` that hold a document, in ascending order. */
  function IdsBelow(docs: map<Id, Transaction>, n: nat): (ids: seq<Id>)
    ensures forall i :: 0 <= i < |ids| ==> ids[i] in docs && ids[i] < n
    ensures forall i, j :: 0 <= i < j < |ids| ==> ids[i] < ids[j]
    ensures forall id :: id in docs && id < n ==> id in ids
  {
    if n == 0 then []
    else IdsBelow(docs, n - 1) + (if n - 1 in docs then [n - 1] else [])
  }

  /** The documents with ids below `n`, in ascending id order: the document
      under each such id exactly once. */
  function Scan(docs: map<Id, Transaction>, n: nat): (r: seq<Transaction>)
    ensures |r| == |IdsBelow(docs, n)|
    ensures forall i :: 0 <= i < |r| ==> r[i] == docs[IdsBelow(docs, n)[i]]
  {
    if n == 0 then []
    else
      var prev := Scan(docs, n - 1);
      if n - 1 in docs then
        assert IdsBelow(docs, n) == IdsBelow(docs, n - 1) + [n - 1];
        prev + [docs[n - 1]]
      else
        assert IdsBelow(docs, n) == IdsBelow(docs, n - 1);
        prev
  }

  /** The scan only looks below its bound: a document stored at or above it
      changes nothing. */
  lemma {:induction false} ScanBelow(docs: map<Id, Transaction>, n: nat, k: Id, t: Transaction)
    requires n <= k
    ensures Scan(docs[k := t], n) == Scan(docs, n)
  {
    if n > 0 {
      ScanBelow(docs, n - 1, k, t);
    }
  }

  /** The whole collection in its natural (creation) order: every stored
      document exactly once, by ascending id. */
  function All(st: TxStore): (r: seq<Transaction>)
    requires Wf(st)
    ensures |r| == |IdsBelow(st.docs, st.next)|
    ensures forall i :: 0 <= i < |r| ==> r[i] == st.docs[IdsBelow(st.docs, st.next)[i]]
    ensures forall t :: t in r <==> t in st.docs.Values
    ensures forall i :: 0 <= i < |r| ==> Valid(r[i])
  {
    var r := Scan(st.docs, st.next);
    ScanValues(st.docs, st.next);
    assert forall t :: t in st.docs.Values ==> t in r by {
      forall t | t in st.docs.Values ensures t in r {
        var id :| id in st.docs && st.docs[id] == t;
      }
    }
    assert forall i :: 0 <= i < |r| ==> Valid(r[i]) by {
      forall i | 0 <= i < |r| ensures Valid(r[i]) {
        assert r[i] in st.docs.Values;
        var id :| id in st.docs && st.docs[id] == r[i];
      }
    }
    r
  }

  /** The scan holds stored documents only, and every one below its bound. */
  lemma ScanValues(docs: map<Id, Transaction>, n: nat)
    ensures forall t :: t in Scan(docs, n) ==> t in docs.Values
    ensures forall id :: id in docs && id < n ==> docs[id] in Scan(docs, n)
  {
    var r := Scan(docs, n);
    var ids := IdsBelow(docs, n);
    forall t | t in r ensures t in docs.Values {
      var i :| 0 <= i < |r| && r[i] == t;
      assert docs[ids[i]] == t;
    }
    forall id | id in docs && id < n ensures docs[id] in r {
      var i :| 0 <= i < |ids| && ids[i] == id;
      assert r[i] == docs[id];
    }
  }

  /** `find({ userId: u })`: the transactions of user `u`, order kept, each as
      many times as it occurs. */
  function Owned(s: seq<Transaction>, u: Id): (r: seq<Transaction>)
    ensures forall t :: t in r <==> t in s && t.userId == u
    ensures forall t :: multiset(r)[t] == if t.userId == u then multiset(s)[t] else 0
    ensures |r| <= |s|
  {
    if s == [] then []
    else
      var rest := Owned(s[1..], u);
      assert s == [s[0]] + s[1..];
      assert forall t :: t in s <==> t == s[0] || t in s[1..];
      if s[0].userId == u then [s[0]] + rest else rest
  }

  lemma ValidNonNegative(s: seq<Transaction>)
    requires forall i :: 0 <= i < |s| ==> Valid(s[i])
    ensures NonNegative(s)
  {
  }

  // ---------------------------------------------------------------------
  // Single documents

  datatype Saved = Saved(store: TxStore, id: Id)

  /** The route's presence check: every required body field must be truthy,
      so an amount of 0 is turned away here. */
  predicate RequiredPresent(userId: Option<Id>, f: Fields)
    ensures RequiredPresent(userId, f) <==>
              && userId.Some?
              && f.description.Some? && f.description.value != ""
              && f.amount.Some? && f.amount.value != 0.0
              && f.category.Some? && f.category.value != ""
              && f.kind.Some? && f.kind.value != ""
  {
    && userId.Some?
    && Truthy(f.description)
    && TruthyNumber(f.amount)
    && Truthy(f.category)
    && Truthy(f.kind)
  }

  /** `date || new Date()`: a date of 0 is falsy, so like a missing one it
      gives way to `now`. */
  function CreateDate(d: Option<int>): Option<int> {
    if d == Some(0) then None else d
  }

  /** `POST /`: presence check, then schema validation, then the insert under
      a fresh id. A missing or zero date becomes `now`. */
  function Create(st: TxStore, userId: Option<Id>, f: Fields, now: int): (r: Result<Saved>)
    requires Wf(st)
    ensures !RequiredPresent(userId, f) ==> r == Err(MissingFields)
    ensures RequiredPresent(userId, f) && Violations(f, true) != {} ==>
              r == Err(ValidationError(Violations(f, true)))
    ensures RequiredPresent(userId, f) && Violations(f, true) == {} ==> r.Ok?
    ensures r.Ok? ==>
              var s := r.value;
              && Wf(s.store)
              && s.id !in st.docs
              && s.id in s.store.docs
              && s.store.docs == st.docs[s.id := s.store.docs[s.id]]
              && s.store.docs[s.id].userId == userId.value
              && Written(s.store.docs[s.id], f.(date := None))
              && ((f.date.None? || f.date == Some(0)) ==> s.store.docs[s.id].date == now)
              && (f.date.Some? && f.date.value != 0 ==> s.store.docs[s.id].date == f.date.value)
              && (f.notes.None? ==> s.store.docs[s.id].notes.None?)
  {
    if !RequiredPresent(userId, f) then Err(MissingFields)
    else if Violations(f, true) != {} then Err(ValidationError(Violations(f, true)))
    else
      var g := f.(date := CreateDate(f.date));
      assert Violations(g, true) == Violations(f, true);
      Ok(Insert(st, New(userId.value, g, now)))
  }

  /** Stores a valid document under the next id. */
  function Insert(st: TxStore, t: Transaction): (s: Saved)
    requires Wf(st) && Valid(t)
    ensures Wf(s.store) && s.id !in st.docs
    ensures s.store.docs == st.docs[s.id := t]
    ensures s.id == st.next && s.store.next == st.next + 1
  {
    var docs := st.docs[st.next := t];
    assert forall id :: id in docs ==> id < st.next + 1 && Valid(docs[id]) by {
      forall id | id in docs ensures id < st.next + 1 && Valid(docs[id]) {
        if id != st.next {
          assert id in st.docs;
        }
      }
    }
    Saved(TxStore(docs, st.next + 1), st.next)
  }

  /** A non-positive amount is never stored: 0 fails the presence check and a
      negative amount the schema's minimum. */
  lemma NonPositiveAmountRejected(st: TxStore, userId: Option<Id>, f: Fields, now: int)
    requires Wf(st)
    requires f.amount.Some? && f.amount.value <= 0.0
    ensures Create(st, userId, f, now).Err?
    ensures f.amount.value == 0.0 ==> Create(st, userId, f, now) == Err(MissingFields)
  {
    if RequiredPresent(userId, f) {
      assert "amount" in Violations(f, true);
    }
  }

  /** `GET /:id`. */
  function Get(st: TxStore, id: Id): (r: Result<Transaction>)
    ensures r.Err? <==> id !in st.docs
    ensures r.Err? ==> r.error == NotFound
    ensures r.Ok? ==> r.value in st.docs.Values && r.value == st.docs[id]
  {
    if id in st.docs then Ok(st.docs[id]) else Err(NotFound)
  }

  /** What a create stores is what a get of its id returns. */
  lemma CreateThenGet(st: TxStore, userId: Option<Id>, f: Fields, now: int)
    requires Wf(st)
    requires Create(st, userId, f, now).Ok?
    ensures var s := Create(st, userId, f, now).value;
            Get(s.store, s.id).Ok? && Written(Get(s.store, s.id).value, f.(date := CreateDate(f.date)))
            && Get(s.store, s.id).value.userId == userId.value
  {
  }

  /** `PUT /:id`: writes description, amount, category, type, date and notes.
      Update validators run on the written paths before the lookup. */
  function Update(st: TxStore, id: Id, f: Fields): (r: Result<TxStore>)
    requires Wf(st)
    ensures Violations(f, false) != {} ==> r == Err(ValidationError(Violations(f, false)))
    ensures Violations(f, false) == {} && id !in st.docs ==> r == Err(NotFound)
    ensures Violations(f, false) == {} && id in st.docs ==> r.Ok?
    ensures r.Ok? ==>
              && Wf(r.value)
              && r.value.next == st.next
              && id in st.docs
              && r.value.docs.Keys == st.docs.Keys
              && (forall other :: other in st.docs && other != id ==>
                                    r.value.docs[other] == st.docs[other])
              && Written(r.value.docs[id], f)
              && Kept(st.docs[id], r.value.docs[id], f)
  {
    if Violations(f, false) != {} then Err(ValidationError(Violations(f, false)))
    else if id !in st.docs then Err(NotFound)
    else Ok(TxStore(st.docs[id := Apply(st.docs[id], f)], st.next))
  }

  /** `DELETE /:id`. */
  function Delete(st: TxStore, id: Id): (r: Result<TxStore>)
    requires Wf(st)
    ensures r.Err? <==> id !in st.docs
    ensures r.Err? ==> r.error == NotFound
    ensures r.Ok? ==> Wf(r.value) && r.value.docs == st.docs - {id} && r.value.next == st.next
  {
    if id in st.docs then Ok(TxStore(st.docs - {id}, st.next)) else Err(NotFound)
  }

  /** A get after a successful update returns the updated document: the sent
      paths written, the others and the owner kept. */
  lemma UpdateThenGet(st: TxStore, id: Id, f: Fields)
    requires Wf(st)
    requires Update(st, id, f).Ok?
    ensures var g := Get(Update(st, id, f).value, id);
            && g.Ok?
            && Written(g.value, f)
            && Kept(Get(st, id).value, g.value, f)
  {
  }

  /** A get after a successful delete of the same id finds nothing, and a get
      of any other id answers as before. */
  lemma DeleteThenGet(st: TxStore, id: Id, other: Id)
    requires Wf(st)
    requires Delete(st, id).Ok?
    ensures Get(Delete(st, id).value, id) == Err(NotFound)
    ensures other != id ==> Get(Delete(st, id).value, other) == Get(st, other)
  {
  }

  /** Deleting what was just created restores the previous documents. */
  lemma CreateThenDelete(st: TxStore, userId: Option<Id>, f: Fields, now: int)
    requires Wf(st)
    requires Create(st, userId, f, now).Ok?
    ensures var s := Create(st, userId, f, now).value;
            Delete(s.store, s.id).Ok? && Delete(s.store, s.id).value.docs == st.docs
  {
    var s := Create(st, userId, f, now).value;
    MapUpdateRemove(st.docs, s.id, s.store.docs[s.id]);
  }

  lemma MapUpdateRemove<K, V>(m: map<K, V>, k: K, v: V)
    requires k !in m
    ensures m[k := v] - {k} == m
  {
  }

  // ---------------------------------------------------------------------
  // Listing

  function DateKey(t: Transaction): real {
    t.date as real
  }

  /** `sort({ date: -1 })`. */
  function NewestFirst(s: seq<Transaction>): (r: seq<Transaction>)
    ensures Sorting.SortedDesc(r, DateKey)
    ensures multiset(r) == multiset(s)
  {
    Sorting.Sort(s, DateKey)
  }

  /** `a * b` on naturals, as repeated addition; `TimesIsProduct` shows it is
      the product. */
  function Times(a: nat, b: nat): nat {
    if a == 0 then 0 else Times(a - 1, b) + b
  }

  lemma {:induction false} TimesIsProduct(a: nat, b: nat)
    ensures Times(a, b) == a * b
  {
    if a > 0 {
      TimesIsProduct(a - 1, b);
    }
  }

  lemma {:induction false} TimesMonotone(a: nat, b: nat, c: nat)
    requires a >= b
    ensures Times(a, c) >= Times(b, c)
  {
    if a > b {
      TimesMonotone(a - 1, b, c);
    }
  }

  /** `Math.ceil(n / d)` on naturals: the fewest pages of `d` that hold `n`. */
  function CeilDiv(n: nat, d: nat): (k: nat)
    requires d > 0
    ensures Times(k, d) >= n
    ensures k > 0 ==> Times(k - 1, d) < n
  {
    if n == 0 then 0 else 1 + CeilDiv(if n <= d then 0 else n - d, d)
  }

  /** Where page `page` of `limit` starts in a sequence of length `n`. */
  function PageStart(n: nat, page: nat, limit: nat): nat
    requires page >= 1
  {
    if Times(page - 1, limit) < n then Times(page - 1, limit) else n
  }

  /** `skip((page - 1) * limit).limit(limit)`. */
  function Page(s: seq<Transaction>, page: nat, limit: nat): (r: seq<Transaction>)
    requires page >= 1 && limit > 0
    ensures |r| <= limit
    ensures PageStart(|s|, page, limit) + |r| <= |s|
    ensures r == s[PageStart(|s|, page, limit)..PageStart(|s|, page, limit) + |r|]
    ensures PageStart(|s|, page, limit) + limit <= |s| ==> |r| == limit
    ensures PageStart(|s|, page, limit) + limit > |s| ==> PageStart(|s|, page, limit) + |r| == |s|
    ensures Sorting.SortedDesc(s, DateKey) ==> Sorting.SortedDesc(r, DateKey)
    ensures forall t :: t in r ==> t in s
  {
    var start := PageStart(|s|, page, limit);
    var end := if start + limit < |s| then start + limit else |s|;
    assert Sorting.SortedDesc(s, DateKey) ==> Sorting.SortedDesc(s[start..end], DateKey) by {
      if Sorting.SortedDesc(s, DateKey) {
        Sorting.SortedSlice(s, DateKey, start, end);
      }
    }
    s[start..end]
  }

  /** A list response. `totalPages` is `None` when the page count is not a
      number (`Math.ceil` of a division by a zero limit). */
  datatype ListView = ListView(expenses: seq<Transaction>, totalPages: Option<nat>, currentPage: nat, total: nat)

  /** `GET /user/:userId`: one page of the user's transactions, newest first,
      with the count of all of them and the number of pages. Page 0 with a
      positive limit asks for a negative skip, which the database refuses. A
      limit of 0 means no limit, so the whole list comes back and the page
      count is not finite; with page 0 the skip is then `-0`, which is
      accepted, so that request succeeds too. */
  function List(st: TxStore, u: Id, page: nat, limit: nat): (r: Result<ListView>)
    requires Wf(st)
    ensures r.Err? <==> page == 0 && limit > 0
    ensures r.Err? ==> r.error == InternalError
    ensures r.Ok? ==>
              var v := r.value;
              && v.total == |Owned(All(st), u)|
              && v.currentPage == page
              && Sorting.SortedDesc(v.expenses, DateKey)
              && (forall t :: t in v.expenses ==> t.userId == u && t in st.docs.Values)
              && (v.totalPages.Some? <==> limit > 0)
              && (limit > 0 ==> && Times(v.totalPages.value, limit) >= v.total
                                && (v.totalPages.value > 0 ==> Times(v.totalPages.value - 1, limit) < v.total)
                                && |v.expenses| <= limit)
              && (limit == 0 ==> v.expenses == NewestFirst(Owned(All(st), u)))
              && (limit > 0 && page >= 1 ==> v.expenses == Page(NewestFirst(Owned(All(st), u)), page, limit))
  {
    if page == 0 && limit > 0 then Err(InternalError)
    else
      var mine := Owned(All(st), u);
      var sorted := NewestFirst(mine);
      var items := if limit == 0 then sorted else Page(sorted, page, limit);
      NewestFirstOwned(st, u);
      Ok(ListView(items, if limit == 0 then None else Some(CeilDiv(|mine|, limit)), page, |mine|))
  }

  /** The query defaults: the first page, of ten. */
  const DefaultPage := 1
  const DefaultLimit := 10

  /** The list route as called: a page or limit missing from the query takes
      its default. */
  function ListQuery(st: TxStore, u: Id, page: Option<nat>, limit: Option<nat>): (r: Result<ListView>)
    requires Wf(st)
    ensures page.None? ==> r.Ok? && r.value.currentPage == DefaultPage
    ensures limit.None? && r.Ok? ==> r.value.totalPages.Some? && |r.value.expenses| <= DefaultLimit
    ensures page.Some? && limit.Some? ==> r == List(st, u, page.value, limit.value)
    ensures page.Some? && limit.None? ==> r == List(st, u, page.value, DefaultLimit)
    ensures page.None? && limit.Some? ==> r == List(st, u, DefaultPage, limit.value)
    ensures page.None? && limit.None? ==> r == List(st, u, DefaultPage, DefaultLimit)
  {
    List(st, u, if page.Some? then page.value else DefaultPage, if limit.Some? then limit.value else DefaultLimit)
  }

  /** Without a query the list shows the user's ten newest transactions, or
      all of them when there are fewer. */
  lemma NoQueryIsNewestTen(st: TxStore, u: Id)
    requires Wf(st)
    ensures var sorted := NewestFirst(Owned(All(st), u));
            ListQuery(st, u, None, None).value.expenses ==
            sorted[..if |sorted| < DefaultLimit then |sorted| else DefaultLimit]
  {
  }

  /** The sorted transactions of a user are stored transactions of that user. */
  lemma NewestFirstOwned(st: TxStore, u: Id)
    requires Wf(st)
    ensures forall t :: t in NewestFirst(Owned(All(st), u)) ==> t.userId == u && t in st.docs.Values
  {
    var mine := Owned(All(st), u);
    forall t | t in NewestFirst(mine) ensures t.userId == u && t in st.docs.Values {
      assert t in multiset(NewestFirst(mine));
      assert t in multiset(mine);
    }
  }

  /** Pages 1 to k laid end to end. */
  function Pages(s: seq<Transaction>, limit: nat, k: nat): seq<Transaction>
    requires limit > 0
  {
    if k == 0 then [] else Pages(s, limit, k - 1) + Page(s, k, limit)
  }

  lemma {:induction false} PagesPrefix(s: seq<Transaction>, limit: nat, k: nat)
    requires limit > 0
    ensures Pages(s, limit, k) == s[..if Times(k, limit) < |s| then Times(k, limit) else |s|]
  {
    if k > 0 {
      PagesPrefix(s, limit, k - 1);
      var lo := PageStart(|s|, k, limit);
      var hi := if Times(k, limit) < |s| then Times(k, limit) else |s|;
      PageIsSlice(s, k, limit);
      PrefixExtend(s, Pages(s, limit, k - 1), Page(s, k, limit), lo, hi);
    }
  }

  /** A prefix followed by the slice after it is the longer prefix. */
  lemma PrefixExtend<T>(s: seq<T>, p: seq<T>, q: seq<T>, lo: nat, hi: nat)
    requires lo <= hi <= |s| && p == s[..lo] && q == s[lo..hi]
    ensures p + q == s[..hi]
  {
  }

  /** Page `k` runs from its start up to `k` pages in, or to the end. */
  lemma PageIsSlice(s: seq<Transaction>, k: nat, limit: nat)
    requires k >= 1 && limit > 0
    ensures Times(k, limit) == Times(k - 1, limit) + limit
    ensures Page(s, k, limit) ==
            s[PageStart(|s|, k, limit)..if Times(k, limit) < |s| then Times(k, limit) else |s|]
  {
  }

  /** The pages a list reports, read in order, are exactly the user's
      transactions newest first: none is skipped or shown twice. */
  lemma PagesCoverAll(st: TxStore, u: Id, limit: nat)
    requires Wf(st) && limit > 0
    ensures var sorted := NewestFirst(Owned(All(st), u));
            Pages(sorted, limit, List(st, u, 1, limit).value.totalPages.value) == sorted
  {
    var sorted := NewestFirst(Owned(All(st), u));
    PagesPrefix(sorted, limit, List(st, u, 1, limit).value.totalPages.value);
  }

  /** A page past the last one is empty. */
  lemma PageBeyondLastEmpty(s: seq<Transaction>, page: nat, limit: nat)
    requires page >= 1 && limit > 0
    requires page > CeilDiv(|s|, limit)
    ensures Page(s, page, limit) == []
  {
    TimesMonotone(page - 1, CeilDiv(|s|, limit), limit);
  }

  /** The number of transactions the recent view shows. */
  const RecentCount := 5

  /** `GET /user/:userId/recent`: the user's newest transactions, at most five. */
  function Recent(st: TxStore, u: Id): (r: seq<Transaction>)
    requires Wf(st)
    ensures var n := |Owned(All(st), u)|;
            |r| == if n < RecentCount then n else RecentCount
    ensures r == NewestFirst(Owned(All(st), u))[..|r|]
  {
    var sorted := NewestFirst(Owned(All(st), u));
    if |sorted| < RecentCount then sorted else sorted[..RecentCount]
  }

  /** The recent view is the first page of five of the list view. */
  lemma RecentIsFirstPage(st: TxStore, u: Id)
    requires Wf(st)
    ensures Recent(st, u) == List(st, u, 1, RecentCount).value.expenses
  {
  }

  // ---------------------------------------------------------------------
  // Dashboard statistics

  /** The balance fields, the month summary fields and the category list,
      side by side in one object. */
  datatype Stats = Stats(
    totalIncome: real,
    totalExpenses: real,
    balance: real,
    monthlyIncome: real,
    monthlyExpenses: real,
    monthlySavings: real,
    savingsRate: real,
    categoryExpenses: seq<CategoryTotal>)

  /** The three reports side by side. */
  function Combine(b: Balance, ms: MonthlySummary, cats: seq<CategoryTotal>): Stats {
    Stats(b.totalIncome, b.totalExpenses, b.balance,
          ms.monthlyIncome, ms.monthlyExpenses, ms.monthlySavings, ms.savingsRate, cats)
  }

  /** `GET /user/:userId/stats`: the balance, the month summary as
      `getMonthlySummary` computes it, and the category breakdown, all over
      one state of the store. */
  function DashboardStats(st: TxStore, u: Id, m: Month): (r: Stats)
    requires Wf(st)
    ensures var b := UserBalance(All(st), u);
            r.totalIncome == b.totalIncome && r.totalExpenses == b.totalExpenses && r.balance == b.balance
    ensures var ms := MonthlySummaryAsWritten(All(st), u, m);
            && r.monthlyIncome == ms.monthlyIncome && r.monthlyExpenses == ms.monthlyExpenses
            && r.monthlySavings == ms.monthlySavings && r.savingsRate == ms.savingsRate
    ensures r.categoryExpenses == CategoryWiseExpenses(All(st), u)
    ensures r.balance == r.totalIncome - r.totalExpenses
    ensures r.monthlySavings == r.monthlyIncome - r.monthlyExpenses
    ensures SumTotals(r.categoryExpenses) == r.totalExpenses
    ensures 0.0 <= r.monthlyIncome <= r.totalIncome
    ensures 0.0 <= r.monthlyExpenses <= r.totalExpenses
    ensures r.savingsRate <= 100.0
    ensures Sorting.SortedDesc(r.categoryExpenses, TotalKey)
    ensures DistinctCategories(r.categoryExpenses)
  {
    var s := All(st);
    ValidNonNegative(s);
    Combine(UserBalance(s, u), MonthlySummaryAsWritten(s, u, m), CategoryWiseExpenses(s, u))
  }

  /** The statistics as evidently intended: the same, but with the month
      summary over the whole month. */
  function DashboardStatsOf(st: TxStore, u: Id, m: Month): (r: Stats)
    requires Wf(st)
    ensures var ms := MonthlySummaryOf(All(st), u, m);
            && r.monthlyIncome == ms.monthlyIncome && r.monthlyExpenses == ms.monthlyExpenses
            && r.monthlySavings == ms.monthlySavings && r.savingsRate == ms.savingsRate
    ensures var w := DashboardStats(st, u, m);
            && r.totalIncome == w.totalIncome && r.totalExpenses == w.totalExpenses
            && r.balance == w.balance && r.categoryExpenses == w.categoryExpenses
    ensures 0.0 <= r.monthlyIncome <= r.totalIncome
    ensures 0.0 <= r.monthlyExpenses <= r.totalExpenses
    ensures r.savingsRate <= 100.0
  {
    var s := All(st);
    ValidNonNegative(s);
    Combine(UserBalance(s, u), MonthlySummaryOf(s, u, m), CategoryWiseExpenses(s, u))
  }

  /** With nothing dated after midnight on the month's last day, the two
      statistics agree. */
  lemma StatsAgreeBeforeLastDay(st: TxStore, u: Id, m: Month)
    requires Wf(st)
    requires forall id :: id in st.docs ==> st.docs[id].date <= m.lastDay
    ensures DashboardStats(st, u, m) == DashboardStatsOf(st, u, m)
  {
    var s := All(st);
    forall i | 0 <= i < |s| ensures s[i].date <= m.lastDay {
      assert s[i] in st.docs.Values;
    }
    WindowsAgreeBeforeLastDay(s, u, m);
  }

  /** Storing a transaction appends it to the natural order. */
  lemma AllAfterInsert(st: TxStore, t: Transaction)
    requires Wf(st) && Valid(t)
    ensures All(Insert(st, t).store) == All(st) + [t]
  {
    ScanBelow(st.docs, st.next, st.next, t);
  }

  /** Recording a transaction moves the statistics by its amount: the totals
      when it is the user's, of that type; the month's totals when it is also
      dated inside the window `getMonthlySummary` matches. */
  lemma StatsAfterRecording(st: TxStore, t: Transaction, u: Id, m: Month)
    requires Wf(st) && Valid(t)
    ensures var before := DashboardStats(st, u, m);
            var after := DashboardStats(Insert(st, t).store, u, m);
            var mine := t.userId == u;
            var inMonth := m.start <= t.date <= m.lastDay;
            && after.totalIncome == before.totalIncome + (if mine && t.kind == Kind.Income then t.amount else 0.0)
            && after.totalExpenses == before.totalExpenses + (if mine && t.kind == Expense then t.amount else 0.0)
            && after.monthlyIncome ==
               before.monthlyIncome + (if mine && t.kind == Kind.Income && inMonth then t.amount else 0.0)
            && after.monthlyExpenses ==
               before.monthlyExpenses + (if mine && t.kind == Expense && inMonth then t.amount else 0.0)
  {
    AllAfterInsert(st, t);
    BalanceAfterRecording(All(st), t, u);
    MonthlyAsWrittenAfterRecording(All(st), t, u, m);
  }

  /** The statistics of a user without transactions are all zero and the
      category list is empty. */
  lemma NoTransactionsEmptyStats(st: TxStore, u: Id, m: Month)
    requires Wf(st)
    requires forall id :: id in st.docs ==> st.docs[id].userId != u
    ensures DashboardStats(st, u, m) == Stats(0.0, 0.0, 0.0, 0.0, 0.0, 0.0, 0.0, [])
  {
    var s := All(st);
    forall i | 0 <= i < |s| ensures s[i].userId != u {
      assert s[i] in st.docs.Values;
    }
    NoTransactionsZeroBalance(s, u);
    NoTransactionsZeroSummary(s, u, m);
    NoExpensesEmptyBreakdown(s, u);
  }
}

=== FILE: reports.dfy ===
/** The three reports over a user's transactions: the all-time balance, the
    summary of one calendar month, and the expense totals per category. Each
    database pipeline (`$match`, `$group` with `$sum`, `$sort`) is a fold over
    the collection in its natural order. */
module Reports {
  import opened Common
  import opened ExpenseModel
  import Sorting

  /** A `$match` stage: the owner, and optionally the type, a closed date
      window and a category. */
  datatype Query = Query(
    user: Id,
    kind: Option<Kind>,
    from: Option<int>,
    to: Option<int>,
    category: Option<ExpenseCategory>)

  predicate Matches(t: Transaction, q: Query) {
    && t.userId == q.user
    && (q.kind.Some? ==> t.kind == q.kind.value)
    && (q.from.Some? ==> q.from.value <= t.date)
    && (q.to.Some? ==> t.date <= q.to.value)
    && (q.category.Some? ==> t.category == q.category.value)
  }

  /** `$sum` of `amount` over the transactions the query matches; 0 when none does. */
  function Sum(s: seq<Transaction>, q: Query): (r: real)
    ensures NonNegative(s) ==> r >= 0.0
    ensures (forall i :: 0 <= i < |s| ==> !Matches(s[i], q)) ==> r == 0.0
  {
    if s == [] then 0.0
    else (if Matches(s[0], q) then s[0].amount else 0.0) + Sum(s[1..], q)
  }

  function OfKind(u: Id, k: Kind): Query {
    Query(u, Some(k), None, None, None)
  }

  /** All amounts are non-negative, as they are in any store of valid transactions. */
  predicate NonNegative(s: seq<Transaction>) {
    forall i :: 0 <= i < |s| ==> s[i].amount >= 0.0
  }

  // ---------------------------------------------------------------------
  // Facts about the fold

  /** The fold distributes over concatenation of collections. */
  lemma {:induction false} SumConcat(a: seq<Transaction>, b: seq<Transaction>, q: Query)
    ensures Sum(a + b, q) == Sum(a, q) + Sum(b, q)
  {
    if a == [] {
      assert a + b == b;
    } else {
      assert (a + b)[0] == a[0];
      assert (a + b)[1..] == a[1..] + b;
      SumConcat(a[1..], b, q);
    }
  }

  lemma SumSingleton(t: Transaction, q: Query)
    ensures Sum([t], q) == if Matches(t, q) then t.amount else 0.0
  {
    assert [t][1..] == [];
  }

  /** A narrower query never sums to more than a wider one. */
  lemma {:induction false} SumMonotone(s: seq<Transaction>, narrow: Query, wide: Query)
    requires NonNegative(s)
    requires forall i :: 0 <= i < |s| ==> Matches(s[i], narrow) ==> Matches(s[i], wide)
    ensures Sum(s, narrow) <= Sum(s, wide)
  {
    if s != [] {
      SumMonotone(s[1..], narrow, wide);
    }
  }

  /** Inserting into a sorted collection adds exactly the inserted amount. */
  lemma {:induction false} SumInsert(x: Transaction, s: seq<Transaction>, key: Transaction -> real, q: Query)
    requires Sorting.SortedDesc(s, key)
    ensures Sum(Sorting.Insert(x, s, key), q) == Sum([x], q) + Sum(s, q)
  {
    if s != [] && key(s[0]) > key(x) {
      SumInsert(x, s[1..], key, q);
    }
  }

  /** Sorting a collection does not change any of its sums. */
  lemma {:induction false} SumSort(s: seq<Transaction>, key: Transaction -> real, q: Query)
    ensures Sum(Sorting.Sort(s, key), q) == Sum(s, q)
  {
    if s != [] {
      SumSort(s[1..], key, q);
      SumInsert(s[0], Sorting.Sort(s[1..], key), key, q);
    }
  }

  // ---------------------------------------------------------------------
  // Balance

  datatype Balance = Balance(totalIncome: real, totalExpenses: real, balance: real)

  /** The all-time balance of user `u` over the collection `s`. */
  function UserBalance(s: seq<Transaction>, u: Id): (b: Balance)
    ensures b.balance == b.totalIncome - b.totalExpenses
    ensures NonNegative(s) ==> b.totalIncome >= 0.0 && b.totalExpenses >= 0.0
  {
    var income := Sum(s, OfKind(u, Kind.Income));
    var expenses := Sum(s, OfKind(u, Expense));
    Balance(income, expenses, income - expenses)
  }

  /** A user without transactions has an all-zero balance. */
  lemma NoTransactionsZeroBalance(s: seq<Transaction>, u: Id)
    requires forall i :: 0 <= i < |s| ==> s[i].userId != u
    ensures UserBalance(s, u) == Balance(0.0, 0.0, 0.0)
  {
  }

  /** The balance of two collections together is the sum of their balances. */
  lemma BalanceConcat(a: seq<Transaction>, b: seq<Transaction>, u: Id)
    ensures UserBalance(a + b, u).totalIncome == UserBalance(a, u).totalIncome + UserBalance(b, u).totalIncome
    ensures UserBalance(a + b, u).totalExpenses == UserBalance(a, u).totalExpenses + UserBalance(b, u).totalExpenses
    ensures UserBalance(a + b, u).balance == UserBalance(a, u).balance + UserBalance(b, u).balance
  {
    SumConcat(a, b, OfKind(u, Kind.Income));
    SumConcat(a, b, OfKind(u, Expense));
  }

  /** Recording one more transaction adds its amount to the user's total
      income when it is the user's income, to the total expenses when it is
      the user's expense, and moves the balance by its signed amount. */
  lemma BalanceAfterRecording(s: seq<Transaction>, t: Transaction, u: Id)
    ensures UserBalance(s + [t], u).totalIncome ==
            UserBalance(s, u).totalIncome + (if t.userId == u && t.kind == Kind.Income then t.amount else 0.0)
    ensures UserBalance(s + [t], u).totalExpenses ==
            UserBalance(s, u).totalExpenses + (if t.userId == u && t.kind == Expense then t.amount else 0.0)
    ensures UserBalance(s + [t], u).balance ==
            UserBalance(s, u).balance
            + (if t.userId != u then 0.0 else if t.kind == Kind.Income then t.amount else -t.amount)
  {
    BalanceConcat(s, [t], u);
    SumSingleton(t, OfKind(u, Kind.Income));
    SumSingleton(t, OfKind(u, Expense));
  }

  // ---------------------------------------------------------------------
  // Monthly summary

  /** Milliseconds in a day, the unit of stored dates. */
  const DayMillis := 86_400_000

  /** The bounds computed for the current month: `start` is midnight on its
      first day and `lastDay` midnight at the start of its last day. */
  datatype Month = Month(start: int, lastDay: int)

  datatype MonthlySummary = MonthlySummary(
    monthlyIncome: real,
    monthlyExpenses: real,
    monthlySavings: real,
    savingsRate: real)

  /** Savings and savings rate from a month's income and expenses. The rate
      is the share of income saved, in percent, and 0 without income. */
  function Summarize(income: real, expenses: real): (m: MonthlySummary)
    ensures m.monthlyIncome == income && m.monthlyExpenses == expenses
    ensures m.monthlySavings == income - expenses
    ensures income > 0.0 ==> m.savingsRate * income == m.monthlySavings * 100.0
    ensures income <= 0.0 ==> m.savingsRate == 0.0
  {
    MonthlySummary(income, expenses, income - expenses,
                   if income > 0.0 then (income - expenses) / income * 100.0 else 0.0)
  }

  /** A rate of savings never exceeds 100 percent when expenses are not
      negative, and reaches it exactly when nothing was spent. */
  lemma SavingsRateAtMostHundred(income: real, expenses: real)
    requires expenses >= 0.0
    ensures Summarize(income, expenses).savingsRate <= 100.0
    ensures income > 0.0 ==> (Summarize(income, expenses).savingsRate == 100.0 <==> expenses == 0.0)
  {
    var m := Summarize(income, expenses);
    if income > 0.0 {
      assert m.savingsRate * income == 100.0 * income - 100.0 * expenses;
      assert m.savingsRate * income <= 100.0 * income;
      if m.savingsRate == 100.0 {
        assert 100.0 * expenses == 0.0;
      }
    }
  }

  /** The window `getMonthlySummary` matches: from the first midnight of the
      month up to and including the midnight that starts its last day. */
  function WrittenWindow(u: Id, k: Kind, m: Month): Query {
    Query(u, Some(k), Some(m.start), Some(m.lastDay), None)
  }

  /** The month summary exactly as `getMonthlySummary` computes it. Anything
      dated after midnight on the month's last day falls outside the window. */
  function MonthlySummaryAsWritten(s: seq<Transaction>, u: Id, m: Month): (r: MonthlySummary)
    ensures r.monthlySavings == r.monthlyIncome - r.monthlyExpenses
    ensures NonNegative(s) ==> r.savingsRate <= 100.0
    ensures NonNegative(s) ==> 0.0 <= r.monthlyIncome <= UserBalance(s, u).totalIncome
    ensures NonNegative(s) ==> 0.0 <= r.monthlyExpenses <= UserBalance(s, u).totalExpenses
  {
    var income := Sum(s, WrittenWindow(u, Kind.Income, m));
    var expenses := Sum(s, WrittenWindow(u, Expense, m));
    assert NonNegative(s) ==>
             income <= UserBalance(s, u).totalIncome
             && expenses <= UserBalance(s, u).totalExpenses
             && Summarize(income, expenses).savingsRate <= 100.0 by {
      if NonNegative(s) {
        SumMonotone(s, WrittenWindow(u, Kind.Income, m), OfKind(u, Kind.Income));
        SumMonotone(s, WrittenWindow(u, Expense, m), OfKind(u, Expense));
        SavingsRateAtMostHundred(income, expenses);
      }
    }
    Summarize(income, expenses)
  }

  /** Recording one more transaction adds its amount to the summary as
      written exactly when it is the user's, of that type, and dated from the
      month's first midnight to the midnight starting its last day. */
  lemma MonthlyAsWrittenAfterRecording(s: seq<Transaction>, t: Transaction, u: Id, m: Month)
    ensures MonthlySummaryAsWritten(s + [t], u, m).monthlyIncome ==
            MonthlySummaryAsWritten(s, u, m).monthlyIncome
            + (if t.userId == u && t.kind == Kind.Income && m.start <= t.date <= m.lastDay then t.amount else 0.0)
    ensures MonthlySummaryAsWritten(s + [t], u, m).monthlyExpenses ==
            MonthlySummaryAsWritten(s, u, m).monthlyExpenses
            + (if t.userId == u && t.kind == Expense && m.start <= t.date <= m.lastDay then t.amount else 0.0)
  {
    SumConcat(s, [t], WrittenWindow(u, Kind.Income, m));
    SumConcat(s, [t], WrittenWindow(u, Expense, m));
    SumSingleton(t, WrittenWindow(u, Kind.Income, m));
    SumSingleton(t, WrittenWindow(u, Expense, m));
  }

  /** The window the month summary is meant to cover: every instant of the
      month, up to the last millisecond of its last day. */
  function MonthWindow(u: Id, k: Kind, m: Month): Query {
    Query(u, Some(k), Some(m.start), Some(m.lastDay + DayMillis - 1), None)
  }

  /** The month summary over the whole month. */
  function MonthlySummaryOf(s: seq<Transaction>, u: Id, m: Month): (r: MonthlySummary)
    ensures r.monthlySavings == r.monthlyIncome - r.monthlyExpenses
    ensures NonNegative(s) ==> r.savingsRate <= 100.0
    ensures NonNegative(s) ==> 0.0 <= r.monthlyIncome <= UserBalance(s, u).totalIncome
    ensures NonNegative(s) ==> 0.0 <= r.monthlyExpenses <= UserBalance(s, u).totalExpenses
  {
    var income := Sum(s, MonthWindow(u, Kind.Income, m));
    var expenses := Sum(s, MonthWindow(u, Expense, m));
    assert NonNegative(s) ==>
             0.0 <= income <= UserBalance(s, u).totalIncome
             && 0.0 <= expenses <= UserBalance(s, u).totalExpenses
             && Summarize(income, expenses).savingsRate <= 100.0 by {
      if NonNegative(s) {
        SumMonotone(s, MonthWindow(u, Kind.Income, m), OfKind(u, Kind.Income));
        SumMonotone(s, MonthWindow(u, Expense, m), OfKind(u, Expense));
        SavingsRateAtMostHundred(income, expenses);
      }
    }
    Summarize(income, expenses)
  }

  /** Recording one more transaction adds its amount to the whole-month
      summary exactly when it is the user's, of that type, and dated from the
      month's first midnight to the last millisecond of its last day. */
  lemma MonthlyAfterRecording(s: seq<Transaction>, t: Transaction, u: Id, m: Month)
    ensures MonthlySummaryOf(s + [t], u, m).monthlyIncome ==
            MonthlySummaryOf(s, u, m).monthlyIncome
            + (if t.userId == u && t.kind == Kind.Income && m.start <= t.date < m.lastDay + DayMillis
               then t.amount else 0.0)
    ensures MonthlySummaryOf(s + [t], u, m).monthlyExpenses ==
            MonthlySummaryOf(s, u, m).monthlyExpenses
            + (if t.userId == u && t.kind == Expense && m.start <= t.date < m.lastDay + DayMillis
               then t.amount else 0.0)
  {
    SumConcat(s, [t], MonthWindow(u, Kind.Income, m));
    SumConcat(s, [t], MonthWindow(u, Expense, m));
    SumSingleton(t, MonthWindow(u, Kind.Income, m));
    SumSingleton(t, MonthWindow(u, Expense, m));
  }

  /** Without any transaction of the user both month summaries are all zero. */
  lemma NoTransactionsZeroSummary(s: seq<Transaction>, u: Id, m: Month)
    requires forall i :: 0 <= i < |s| ==> s[i].userId != u
    ensures MonthlySummaryAsWritten(s, u, m) == MonthlySummary(0.0, 0.0, 0.0, 0.0)
    ensures MonthlySummaryOf(s, u, m) == MonthlySummary(0.0, 0.0, 0.0, 0.0)
  {
  }

  /** The written window loses the last day: an income recorded one
      millisecond after midnight on the last day is missing from the summary
      `getMonthlySummary` computes but counted over the whole month. */
  lemma LastDayDropped(u: Id, m: Month, amount: real)
    requires m.start <= m.lastDay
    ensures var t := Transaction(u, "salary", amount, ExpenseCategory.Income, Kind.Income, m.lastDay + 1, None);
            MonthlySummaryAsWritten([t], u, m).monthlyIncome == 0.0
            && MonthlySummaryOf([t], u, m).monthlyIncome == amount
  {
    var t := Transaction(u, "salary", amount, ExpenseCategory.Income, Kind.Income, m.lastDay + 1, None);
    SumSingleton(t, WrittenWindow(u, Kind.Income, m));
    SumSingleton(t, MonthWindow(u, Kind.Income, m));
  }

  /** The two windows agree on every transaction dated no later than
      midnight on the last day, so they differ only on that day. */
  lemma {:induction false} WindowsAgreeBeforeLastDay(s: seq<Transaction>, u: Id, m: Month)
    requires forall i :: 0 <= i < |s| ==> s[i].date <= m.lastDay
    ensures MonthlySummaryAsWritten(s, u, m) == MonthlySummaryOf(s, u, m)
  {
    SumAgree(s, WrittenWindow(u, Kind.Income, m), MonthWindow(u, Kind.Income, m));
    SumAgree(s, WrittenWindow(u, Expense, m), MonthWindow(u, Expense, m));
  }

  lemma {:induction false} SumAgree(s: seq<Transaction>, a: Query, b: Query)
    requires forall i :: 0 <= i < |s| ==> (Matches(s[i], a) <==> Matches(s[i], b))
    ensures Sum(s, a) == Sum(s, b)
  {
    if s != [] {
      SumAgree(s[1..], a, b);
    }
  }

  // ---------------------------------------------------------------------
  // Category breakdown

  datatype CategoryTotal = CategoryTotal(category: ExpenseCategory, total: real)

  function TotalKey(g: CategoryTotal): real {
    g.total
  }

  function ExpensesIn(u: Id, c: ExpenseCategory): Query {
    Query(u, Some(Expense), None, None, Some(c))
  }

  /** No category appears twice. */
  predicate DistinctCategories(g: seq<CategoryTotal>) {
    forall i, j :: 0 <= i < j < |g| ==> g[i].category != g[j].category
  }

  function Categories(g: seq<CategoryTotal>): set<ExpenseCategory> {
    set i | 0 <= i < |g| :: g[i].category
  }

  /** The categories in which user `u` has at least one expense. */
  function ExpenseCategories(s: seq<Transaction>, u: Id): set<ExpenseCategory> {
    set i | 0 <= i < |s| && Matches(s[i], OfKind(u, Expense)) :: s[i].category
  }

  function SumTotals(g: seq<CategoryTotal>): real {
    if g == [] then 0.0 else g[0].total + SumTotals(g[1..])
  }

  /** Each entry carries the full expense total of its category. */
  predicate TotalsMatch(g: seq<CategoryTotal>, s: seq<Transaction>, u: Id) {
    forall i :: 0 <= i < |g| ==> g[i].total == Sum(s, ExpensesIn(u, g[i].category))
  }

  /** Adds `amount` to the entry of category `c`, appending one if there is none. */
  function AddTo(g: seq<CategoryTotal>, c: ExpenseCategory, amount: real): (r: seq<CategoryTotal>)
    requires DistinctCategories(g)
    ensures |r| == |g| || (|r| == |g| + 1 && r[|g|] == CategoryTotal(c, amount))
    ensures |r| == |g| + 1 <==> forall i :: 0 <= i < |g| ==> g[i].category != c
    ensures forall i :: 0 <= i < |g| ==>
              r[i].category == g[i].category
              && r[i].total == g[i].total + (if g[i].category == c then amount else 0.0)
  {
    if g == [] then [CategoryTotal(c, amount)]
    else if g[0].category == c then [CategoryTotal(c, g[0].total + amount)] + g[1..]
    else [g[0]] + AddTo(g[1..], c, amount)
  }

  /** Adding keeps categories distinct and adds `c` to the set of categories. */
  lemma AddToCategories(g: seq<CategoryTotal>, c: ExpenseCategory, amount: real)
    requires DistinctCategories(g)
    ensures DistinctCategories(AddTo(g, c, amount))
    ensures Categories(AddTo(g, c, amount)) == Categories(g) + {c}
  {
    var r := AddTo(g, c, amount);
    forall i, j | 0 <= i < j < |r| ensures r[i].category != r[j].category {
      if j < |g| {
        assert r[i].category == g[i].category && r[j].category == g[j].category;
      } else {
        assert r[i].category == g[i].category && r[j].category == c;
      }
    }
    CategoriesOfAdded(g, c, amount);
  }

  lemma CategoriesOfAdded(g: seq<CategoryTotal>, c: ExpenseCategory, amount: real)
    requires DistinctCategories(g)
    ensures Categories(AddTo(g, c, amount)) == Categories(g) + {c}
  {
    var r := AddTo(g, c, amount);
    forall y | y in Categories(g) ensures y in Categories(r) {
      var i :| 0 <= i < |g| && g[i].category == y;
      assert r[i].category == y;
    }
    assert c in Categories(r) by {
      if |r| == |g| {
        var i :| 0 <= i < |g| && g[i].category == c;
        assert r[i].category == c;
      } else {
        assert r[|g|].category == c;
      }
    }
    forall y | y in Categories(r) ensures y in Categories(g) || y == c {
      var i :| 0 <= i < |r| && r[i].category == y;
      if i < |g| {
        assert g[i].category == y;
      }
    }
  }

  /** Adding raises the grand total by `amount`. */
  lemma {:induction false} AddToSum(g: seq<CategoryTotal>, c: ExpenseCategory, amount: real)
    requires DistinctCategories(g)
    ensures SumTotals(AddTo(g, c, amount)) == SumTotals(g) + amount
  {
    if g == [] {
    } else if g[0].category == c {
      assert forall i :: 0 <= i < |g[1..]| ==> g[1..][i].category != c by {
        forall i | 0 <= i < |g[1..]| ensures g[1..][i].category != c {
          assert g[1..][i] == g[i + 1];
        }
      }
      assert ([CategoryTotal(c, g[0].total + amount)] + g[1..])[1..] == g[1..];
    } else {
      AddToSum(g[1..], c, amount);
      assert ([g[0]] + AddTo(g[1..], c, amount))[1..] == AddTo(g[1..], c, amount);
    }
  }

  /** The `$group` stage over user `u`'s expenses: one entry per category. */
  function Group(s: seq<Transaction>, u: Id): (g: seq<CategoryTotal>)
    ensures DistinctCategories(g)
    ensures Categories(g) == ExpenseCategories(s, u)
    ensures TotalsMatch(g, s, u)
    ensures SumTotals(g) == Sum(s, OfKind(u, Expense))
  {
    if s == [] then []
    else
      var rest := Group(s[1..], u);
      GroupStep(s, u, rest);
      if Matches(s[0], OfKind(u, Expense)) then AddTo(rest, s[0].category, s[0].amount) else rest
  }

  /** One step of the grouping: folding the first transaction into the groups
      of the others gives the groups of the whole collection. */
  lemma GroupStep(s: seq<Transaction>, u: Id, rest: seq<CategoryTotal>)
    requires s != []
    requires DistinctCategories(rest)
    requires Categories(rest) == ExpenseCategories(s[1..], u)
    requires TotalsMatch(rest, s[1..], u)
    requires SumTotals(rest) == Sum(s[1..], OfKind(u, Expense))
    ensures var g := if Matches(s[0], OfKind(u, Expense)) then AddTo(rest, s[0].category, s[0].amount) else rest;
            && DistinctCategories(g)
            && Categories(g) == ExpenseCategories(s, u)
            && TotalsMatch(g, s, u)
            && SumTotals(g) == Sum(s, OfKind(u, Expense))
  {
    assert ExpenseCategories(s, u) ==
      (if Matches(s[0], OfKind(u, Expense)) then {s[0].category} else {})
      + ExpenseCategories(s[1..], u);
    if Matches(s[0], OfKind(u, Expense)) {
      var c := s[0].category;
      AddToCategories(rest, c, s[0].amount);
      AddToSum(rest, c, s[0].amount);
      AddToTotals(s, u, rest);
    } else {
      forall i | 0 <= i < |rest| ensures rest[i].total == Sum(s, ExpensesIn(u, rest[i].category)) {
      }
    }
  }

  /** Folding a matching expense into the groups of the others keeps every
      entry's total equal to its category's expense total. */
  lemma AddToTotals(s: seq<Transaction>, u: Id, rest: seq<CategoryTotal>)
    requires s != [] && Matches(s[0], OfKind(u, Expense))
    requires DistinctCategories(rest)
    requires Categories(rest) == ExpenseCategories(s[1..], u)
    requires TotalsMatch(rest, s[1..], u)
    ensures TotalsMatch(AddTo(rest, s[0].category, s[0].amount), s, u)
  {
    var c := s[0].category;
    var g := AddTo(rest, c, s[0].amount);
    forall i | 0 <= i < |g| ensures g[i].total == Sum(s, ExpensesIn(u, g[i].category)) {
      if i == |rest| {
        assert c !in Categories(rest);
      }
    }
  }

  lemma {:induction false} SumTotalsInsert(x: CategoryTotal, g: seq<CategoryTotal>)
    requires Sorting.SortedDesc(g, TotalKey)
    ensures SumTotals(Sorting.Insert(x, g, TotalKey)) == x.total + SumTotals(g)
  {
    if g != [] && TotalKey(g[0]) > TotalKey(x) {
      SumTotalsInsert(x, g[1..]);
    }
  }

  lemma {:induction false} SumTotalsSort(g: seq<CategoryTotal>)
    ensures SumTotals(Sorting.Sort(g, TotalKey)) == SumTotals(g)
  {
    if g != [] {
      SumTotalsSort(g[1..]);
      SumTotalsInsert(g[0], Sorting.Sort(g[1..], TotalKey));
    }
  }

  lemma {:induction false} DistinctInsert(x: CategoryTotal, g: seq<CategoryTotal>)
    requires Sorting.SortedDesc(g, TotalKey)
    requires DistinctCategories(g) && x.category !in Categories(g)
    ensures DistinctCategories(Sorting.Insert(x, g, TotalKey))
  {
    if g != [] && TotalKey(g[0]) > TotalKey(x) {
      assert Categories(g) == {g[0].category} + Categories(g[1..]);
      DistinctInsert(x, g[1..]);
      var rest := Sorting.Insert(x, g[1..], TotalKey);
      forall y | y in rest
        ensures y.category != g[0].category
      {
        assert y in multiset(rest);
        if y != x {
          assert y in multiset(g[1..]);
        }
      }
    }
  }

  lemma {:induction false} DistinctSort(g: seq<CategoryTotal>)
    requires DistinctCategories(g)
    ensures DistinctCategories(Sorting.Sort(g, TotalKey))
  {
    if g != [] {
      DistinctSort(g[1..]);
      var rest := Sorting.Sort(g[1..], TotalKey);
      Sorting.SortMembers(g[1..], TotalKey);
      assert g[0].category !in Categories(rest) by {
        forall i | 0 <= i < |rest|
          ensures rest[i].category != g[0].category
        {
          assert rest[i] in g[1..];
          var j :| 0 <= j < |g[1..]| && g[1..][j] == rest[i];
          assert g[j + 1] == rest[i];
        }
      }
      DistinctInsert(g[0], rest);
    }
  }

  /** The category report: user `u`'s expense totals per category, largest first. */
  function CategoryWiseExpenses(s: seq<Transaction>, u: Id): (r: seq<CategoryTotal>)
    ensures Sorting.SortedDesc(r, TotalKey)
    ensures DistinctCategories(r)
    ensures Categories(r) == ExpenseCategories(s, u)
    ensures TotalsMatch(r, s, u)
    ensures SumTotals(r) == UserBalance(s, u).totalExpenses
  {
    var g := Group(s, u);
    DistinctSort(g);
    SumTotalsSort(g);
    SortKeepsTotals(g, s, u);
    Sorting.Sort(g, TotalKey)
  }

  /** Sorting the groups keeps the same categories with the same totals. */
  lemma SortKeepsTotals(g: seq<CategoryTotal>, s: seq<Transaction>, u: Id)
    requires TotalsMatch(g, s, u)
    ensures Categories(Sorting.Sort(g, TotalKey)) == Categories(g)
    ensures TotalsMatch(Sorting.Sort(g, TotalKey), s, u)
  {
    var r := Sorting.Sort(g, TotalKey);
    Sorting.SortMembers(g, TotalKey);
    forall i | 0 <= i < |r| ensures r[i].category in Categories(g) && r[i].total == Sum(s, ExpensesIn(u, r[i].category)) {
      assert r[i] in g;
      var j :| 0 <= j < |g| && g[j] == r[i];
    }
    forall c | c in Categories(g) ensures c in Categories(r) {
      var i :| 0 <= i < |g| && g[i].category == c;
      assert g[i] in r;
      var j :| 0 <= j < |r| && r[j] == g[i];
    }
  }

  lemma FirstCategory(g: seq<CategoryTotal>)
    requires g != []
    ensures g[0].category in Categories(g)
  {
  }

  /** A user without expenses gets an empty category report. */
  lemma NoExpensesEmptyBreakdown(s: seq<Transaction>, u: Id)
    requires forall i :: 0 <= i < |s| ==> !Matches(s[i], OfKind(u, Expense))
    ensures CategoryWiseExpenses(s, u) == []
  {
    var r := CategoryWiseExpenses(s, u);
    if r != [] {
      FirstCategory(r);
      assert false;
    }
  }
}

=== FILE: sorting.dfy ===
/** A stable descending insertion sort on sequences, ordered by a numeric key.
    It stands for the database's `sort({ field: -1 })`: the ordering and the
    permutation are what the backend relies on; the order of equal keys is
    left open by the database, and this model happens to keep input order. */
module Sorting {

  /** Keys never increase from left to right. */
  predicate SortedDesc<T>(s: seq<T>, key: T -> real) {
    forall i, j :: 0 <= i < j < |s| ==> key(s[i]) >= key(s[j])
  }

  /** Places `x` in front of the first element whose key does not exceed its own. */
  function Insert<T>(x: T, s: seq<T>, key: T -> real): (r: seq<T>)
    requires SortedDesc(s, key)
    ensures multiset(r) == multiset(s) + multiset{x}
  {
    if s == [] || key(s[0]) <= key(x) then [x] + s
    else
      assert s == [s[0]] + s[1..];
      SortedTail(s, key);
      [s[0]] + Insert(x, s[1..], key)
  }

  lemma SortedTail<T>(s: seq<T>, key: T -> real)
    requires SortedDesc(s, key) && s != []
    ensures SortedDesc(s[1..], key)
  {
    forall i, j | 0 <= i < j < |s| - 1 ensures key(s[1..][i]) >= key(s[1..][j]) {
      assert s[1..][i] == s[i + 1] && s[1..][j] == s[j + 1];
    }
  }

  /** Inserting into a sorted sequence keeps it sorted. */
  lemma {:induction false} InsertSorted<T>(x: T, s: seq<T>, key: T -> real)
    requires SortedDesc(s, key)
    ensures SortedDesc(Insert(x, s, key), key)
  {
    if s == [] || key(s[0]) <= key(x) {
      var r := [x] + s;
      forall i, j | 0 <= i < j < |r| ensures key(r[i]) >= key(r[j]) {
        assert r[j] == s[j - 1];
        if i > 0 {
          assert r[i] == s[i - 1];
        }
      }
    } else {
      SortedTail(s, key);
      InsertSorted(x, s[1..], key);
      var rest := Insert(x, s[1..], key);
      forall y | y in rest ensures key(s[0]) >= key(y) {
        assert y in multiset(rest);
        if y != x {
          assert y in multiset(s[1..]);
          var k :| 0 <= k < |s[1..]| && s[1..][k] == y;
          assert s[k + 1] == y;
        }
      }
      var r := [s[0]] + rest;
      forall i, j | 0 <= i < j < |r| ensures key(r[i]) >= key(r[j]) {
        assert r[j] == rest[j - 1];
        assert r[j] in rest;
        if i > 0 {
          assert r[i] == rest[i - 1];
        }
      }
    }
  }

  /** The elements of `s`, each once, in descending key order. */
  function Sort<T>(s: seq<T>, key: T -> real): (r: seq<T>)
    ensures SortedDesc(r, key)
    ensures multiset(r) == multiset(s)
    ensures |r| == |s|
  {
    if s == [] then []
    else
      assert s == [s[0]] + s[1..];
      var sorted := Sort(s[1..], key);
      InsertSorted(s[0], sorted, key);
      Insert(s[0], sorted, key)
  }

  /** Sorting holds exactly the same members as its input. */
  lemma SortMembers<T>(s: seq<T>, key: T -> real)
    ensures forall y :: y in Sort(s, key) <==> y in s
  {
    var r := Sort(s, key);
    forall y
      ensures y in r <==> y in s
    {
      assert y in r <==> y in multiset(r);
      assert y in s <==> y in multiset(s);
    }
  }

  /** Every slice of a sorted sequence is sorted. */
  lemma SortedSlice<T>(s: seq<T>, key: T -> real, a: nat, b: nat)
    requires SortedDesc(s, key) && a <= b <= |s|
    ensures SortedDesc(s[a..b], key)
  {
    forall i, j | 0 <= i < j < b - a
      ensures key(s[a..b][i]) >= key(s[a..b][j])
    {
      assert s[a..b][i] == s[a + i] && s[a..b][j] == s[a + j];
    }
  }
}

=== FILE: user_model.dfy ===
/** The account schema: profile fields with their setters, validators and
    defaults, the embedded budgeting categories, and the view of an account
    that responses carry (never the password). */
module UserModel {
  import opened Common

  datatype Currency = USD | EUR | GBP | INR | CAD | AUD

  const DefaultCurrency := USD
  const MaxNameLength := 50
  const MinPasswordLength := 8
  /** The schema's default category colour. No route reaches it, since adding
      a category always supplies a colour; it serves only as sample data. */
  const DefaultColor := "#3B82F6"

  function CurrencyCode(c: Currency): string {
    match c
    case USD => "USD"
    case EUR => "EUR"
    case GBP => "GBP"
    case INR => "INR"
    case CAD => "CAD"
    case AUD => "AUD"
  }

  /** The currency enum validator: accepts exactly the six codes. */
  function ParseCurrency(s: string): (r: Option<Currency>)
    ensures r.Some? ==> CurrencyCode(r.value) == s
    ensures r.None? ==> forall c :: CurrencyCode(c) != s
  {
    if s == "USD" then Some(USD)
    else if s == "EUR" then Some(EUR)
    else if s == "GBP" then Some(GBP)
    else if s == "INR" then Some(INR)
    else if s == "CAD" then Some(CAD)
    else if s == "AUD" then Some(AUD)
    else None
  }

  lemma CurrencyCodeRoundTrip(c: Currency)
    ensures ParseCurrency(CurrencyCode(c)) == Some(c)
  {
  }

  /** A budgeting category embedded in an account. */
  datatype Category = Category(id: Id, name: string, budget: real, color: string)

  /** A stored account. The password is kept verbatim. */
  datatype Account = Account(
    name: string,
    email: string,
    password: string,
    currency: Currency,
    monthlyBudget: real,
    categories: seq<Category>)

  /** The email setters: lower-cased, then trimmed. */
  function NormalizeEmail(e: string): string {
    Trim(ToLower(e))
  }

  /** What the email setters keep: the lower-cased input with the whitespace
      around it cut off, so no upper-case ASCII letter and no surrounding
      whitespace is left. */
  lemma NormalizeEmailSpec(e: string)
    ensures var l := ToLower(e);
            var i := LeadingSpaces(l);
            var r := NormalizeEmail(e);
            && i + |r| <= |e|
            && r == l[i..i + |r|]
            && AllWhitespace(l[..i]) && AllWhitespace(l[i + |r|..])
            && (r == [] || (!IsWhitespace(r[0]) && !IsWhitespace(r[|r| - 1])))
            && (forall k :: 0 <= k < |r| ==> !('A' <= r[k] <= 'Z'))
  {
    var l := ToLower(e);
    var i := LeadingSpaces(l);
    var r := NormalizeEmail(e);
    TrimSpec(l);
    forall k | 0 <= k < |r| ensures !('A' <= r[k] <= 'Z') {
      assert r[k] == l[i + k];
    }
  }

  /** Normalizing twice is normalizing once, so stored emails are fixed points. */
  lemma NormalizeEmailIdempotent(e: string)
    ensures NormalizeEmail(NormalizeEmail(e)) == NormalizeEmail(e)
  {
    var l := ToLower(e);
    var t := Trim(l);
    var i := LeadingSpaces(l);
    TrimSpec(l);
    LowerSliceUnchanged(l, i, i + |t|);
    assert ToLower(t) == t;
    TrimIdempotent(l);
  }

  /** A piece of a lower-cased string has nothing left to lower. */
  lemma LowerSliceUnchanged(l: string, a: nat, b: nat)
    requires a <= b <= |l|
    requires forall k :: 0 <= k < |l| ==> !('A' <= l[k] <= 'Z')
    ensures ToLower(l[a..b]) == l[a..b]
  {
    var t := l[a..b];
    forall k | 0 <= k < |t|
      ensures ToLower(t)[k] == t[k]
    {
      assert t[k] == l[a + k];
    }
  }

  predicate NameOk(n: string) {
    0 < |n| <= MaxNameLength
  }

  /** The constraints every stored account meets. The email pattern is not
      part of this: it is checked once, when the account is created. */
  predicate ValidAccount(a: Account) {
    && NameOk(a.name) && Trim(a.name) == a.name
    && a.email != "" && NormalizeEmail(a.email) == a.email
    && |a.password| >= MinPasswordLength
    && NamedCategories(a.categories)
  }

  /** Every category carries a name: the schema requires one. */
  predicate NamedCategories(cs: seq<Category>) {
    forall i :: 0 <= i < |cs| ==> cs[i].name != ""
  }

  /** The validators run when an account is created from raw values, after the
      setters. `validEmail` is the schema's email pattern. */
  function AccountViolations(name: string, email: string, password: string,
                             validEmail: string -> bool): (v: set<string>)
    ensures v <= {"name", "email", "password"}
    ensures "name" in v <==> !(0 < |Trim(name)| <= MaxNameLength)
    ensures "email" in v <==> NormalizeEmail(email) == "" || !validEmail(NormalizeEmail(email))
    ensures "password" in v <==> |password| < MinPasswordLength
  {
    (if NameOk(Trim(name)) then {} else {"name"})
    + (if NormalizeEmail(email) != "" && validEmail(NormalizeEmail(email)) then {} else {"email"})
    + (if |password| >= MinPasswordLength then {} else {"password"})
  }

  /** `User.create({ name, email, password })`: setters, validators, defaults. */
  function NewAccount(name: string, email: string, password: string,
                      validEmail: string -> bool): (r: Result<Account>)
    ensures r.Err? <==> AccountViolations(name, email, password, validEmail) != {}
    ensures r.Err? ==> r.error == ValidationError(AccountViolations(name, email, password, validEmail))
    ensures r.Ok? ==> && ValidAccount(r.value)
                      && validEmail(r.value.email)
                      && r.value.name == Trim(name)
                      && r.value.email == NormalizeEmail(email)
                      && r.value.password == password
                      && r.value.currency == DefaultCurrency
                      && r.value.monthlyBudget == 0.0
                      && r.value.categories == []
  {
    var v := AccountViolations(name, email, password, validEmail);
    if v != {} then Err(ValidationError(v))
    else
      TrimIdempotent(name);
      NormalizeEmailIdempotent(email);
      Ok(Account(Trim(name), NormalizeEmail(email), password, DefaultCurrency, 0.0, []))
  }

  /** What a response says about an account: everything but the password. */
  datatype AccountView = AccountView(
    id: Id,
    name: string,
    email: string,
    currency: Currency,
    monthlyBudget: real,
    categories: seq<Category>)

  function View(id: Id, a: Account): (v: AccountView)
    ensures v.id == id && v.name == a.name && v.email == a.email
    ensures v.currency == a.currency && v.monthlyBudget == a.monthlyBudget
    ensures v.categories == a.categories
  {
    AccountView(id, a.name, a.email, a.currency, a.monthlyBudget, a.categories)
  }

  /** The view does not depend on the password: two accounts that differ only
      in it look the same to every client. */
  lemma ViewHidesPassword(id: Id, a: Account, password: string)
    ensures View(id, a) == View(id, a.(password := password))
  {
  }

  /** The users collection: accounts by id, and the id the next one receives. */
  datatype AccountStore = AccountStore(docs: map<Id, Account>, next: Id)

  /** The unique index on email: no two accounts share one. */
  predicate UniqueEmails(docs: map<Id, Account>) {
    forall a, b :: a in docs && b in docs && docs[a].email == docs[b].email ==> a == b
  }

  /** Storing an account under `id` keeps the index when no other account
      holds its email. */
  lemma UniqueEmailsUpdate(docs: map<Id, Account>, id: Id, a: Account)
    requires UniqueEmails(docs)
    requires forall other :: other in docs && other != id ==> docs[other].email != a.email
    ensures UniqueEmails(docs[id := a])
  {
    var r := docs[id := a];
    forall x, y | x in r && y in r && r[x].email == r[y].email
      ensures x == y
    {
      if x != id && y != id {
        assert r[x] == docs[x] && r[y] == docs[y];
      }
    }
  }

  /** Every account under an id below `n` is valid. */
  predicate AllValidBelow(docs: map<Id, Account>, n: nat) {
    forall id :: id in docs ==> id < n && ValidAccount(docs[id])
  }

  lemma AllValidBelowUpdate(docs: map<Id, Account>, n: nat, id: Id, a: Account)
    requires AllValidBelow(docs, n) && id < n && ValidAccount(a)
    ensures AllValidBelow(docs[id := a], n)
  {
    var m := docs[id := a];
    forall x | x in m ensures x < n && ValidAccount(m[x]) {
      if x != id { assert m[x] == docs[x]; }
    }
  }

  /** Removing an account keeps the collection well formed. */
  lemma WfAccountsRemove(st: AccountStore, id: Id)
    requires WfAccounts(st)
    ensures WfAccounts(AccountStore(st.docs - {id}, st.next))
  {
    var m := st.docs - {id};
    forall x | x in m ensures x < st.next && ValidAccount(m[x]) {
      assert m[x] == st.docs[x];
    }
    forall x, y | x in m && y in m && m[x].email == m[y].email ensures x == y {
      assert m[x] == st.docs[x] && m[y] == st.docs[y];
    }
  }

  /** Every id was handed out before, every account is valid, and the unique
      index holds. */
  predicate WfAccounts(st: AccountStore) {
    && AllValidBelow(st.docs, st.next)
    && UniqueEmails(st.docs)
  }
}

=== FILE: user_routes.dfy ===
/** The user router: the profile, the settings, the account's budgeting
    categories, and deleting an account. Every route looks the account up by
    id first and answers "not found" when there is none. */
module UserRoutes {
  import opened Common
  import opened UserModel
  import CategoryList
  import ExpenseRoutes

  // ---------------------------------------------------------------------
  // Profile

  /** `GET /profile/:id` as it was meant to work: the account's view. */
  function GetProfile(st: AccountStore, id: Id): (r: Result<AccountView>)
    ensures r.Err? <==> id !in st.docs
    ensures r.Err? ==> r.error == NotFound
    ensures r.Ok? ==> r.value.id == id && r.value.email == st.docs[id].email
                      && r.value == View(id, st.docs[id])
  {
    if id in st.docs then Ok(View(id, st.docs[id])) else Err(NotFound)
  }

  /** `GET /profile/:id` as written: the handler calls a profile method the
      account model does not define, so a found account ends in the handler's
      error answer. */
  function GetProfileAsWritten(st: AccountStore, id: Id): (r: Result<AccountView>)
    ensures r.Err?
    ensures r.error == NotFound <==> id !in st.docs
  {
    if id in st.docs then Err(InternalError) else Err(NotFound)
  }

  /** The two agree exactly when there is no such account; otherwise the
      written route fails where the intended one answers. */
  lemma GetProfileFinding(st: AccountStore, id: Id)
    ensures GetProfile(st, id).Err? ==> GetProfileAsWritten(st, id) == GetProfile(st, id)
    ensures GetProfile(st, id).Ok? ==> GetProfileAsWritten(st, id) == Err(InternalError)
  {
  }

  /** The update validators on the profile paths, after the `trim` setter on
      the name. Paths the request leaves out are not validated. */
  function ProfileViolations(name: Option<string>, currency: Option<string>): (v: set<string>)
    ensures v <= {"name", "currency"}
    ensures "name" in v <==> name.Some? && !NameOk(Trim(name.value))
    ensures "currency" in v <==> currency.Some? && ParseCurrency(currency.value).None?
  {
    (if name.Some? && !NameOk(Trim(name.value)) then {"name"} else {})
    + (if currency.Some? && ParseCurrency(currency.value).None? then {"currency"} else {})
  }

  /** `after` is `before` with the profile paths that were sent written and
      everything else kept. */
  predicate ProfileWritten(before: Account, after: Account, name: Option<string>,
                           currency: Option<string>, budget: Option<real>)
  {
    && after.email == before.email
    && after.password == before.password
    && after.categories == before.categories
    && after.name == (if name.Some? then Trim(name.value) else before.name)
    && (if currency.Some? then CurrencyCode(after.currency) == currency.value
        else after.currency == before.currency)
    && after.monthlyBudget == (if budget.Some? then budget.value else before.monthlyBudget)
  }

  function ApplyProfile(a: Account, name: Option<string>, currency: Option<string>,
                        budget: Option<real>): (r: Account)
    requires ValidAccount(a) && ProfileViolations(name, currency) == {}
    ensures ValidAccount(r) && ProfileWritten(a, r, name, currency, budget)
  {
    var n := if name.Some? then TrimIdempotent(name.value); Trim(name.value) else a.name;
    a.(name := n,
       currency := if currency.Some? then ParseCurrency(currency.value).value else a.currency,
       monthlyBudget := if budget.Some? then budget.value else a.monthlyBudget)
  }

  /** The write both profile routes commit: `findByIdAndUpdate` with update
      validators, which run on the sent paths before the account is looked up. */
  function SetProfile(st: AccountStore, id: Id, name: Option<string>, currency: Option<string>,
                      budget: Option<real>): (r: Result<AccountStore>)
    requires WfAccounts(st)
    ensures ProfileViolations(name, currency) != {} ==>
              r == Err(ValidationError(ProfileViolations(name, currency)))
    ensures ProfileViolations(name, currency) == {} && id !in st.docs ==> r == Err(NotFound)
    ensures r.Ok? <==> ProfileViolations(name, currency) == {} && id in st.docs
    ensures r.Ok? ==>
              && WfAccounts(r.value)
              && r.value.next == st.next
              && r.value.docs.Keys == st.docs.Keys
              && (forall other :: other in st.docs && other != id ==>
                                    r.value.docs[other] == st.docs[other])
              && ProfileWritten(st.docs[id], r.value.docs[id], name, currency, budget)
  {
    if ProfileViolations(name, currency) != {} then
      Err(ValidationError(ProfileViolations(name, currency)))
    else if id !in st.docs then Err(NotFound)
    else Ok(Replace(st, id, ApplyProfile(st.docs[id], name, currency, budget)))
  }

  /** Replaces a stored account by one with the same email. */
  function Replace(st: AccountStore, id: Id, a: Account): (r: AccountStore)
    requires WfAccounts(st) && id in st.docs
    requires ValidAccount(a) && a.email == st.docs[id].email
    ensures WfAccounts(r) && r.next == st.next
    ensures r.docs == st.docs[id := a] && r.docs.Keys == st.docs.Keys
  {
    forall other | other in st.docs && other != id
      ensures st.docs[other].email != a.email
    {
      assert st.docs[id].email == a.email;
    }
    UniqueEmailsUpdate(st.docs, id, a);
    AllValidBelowUpdate(st.docs, st.next, id, a);
    AccountStore(st.docs[id := a], st.next)
  }

  datatype ProfileSaved = ProfileSaved(store: AccountStore, user: AccountView)

  /** `PUT /profile/:id` as it was meant to work: the write, then the view of
      the updated account. */
  function UpdateProfile(st: AccountStore, id: Id, name: Option<string>, currency: Option<string>,
                         budget: Option<real>): (r: Result<ProfileSaved>)
    requires WfAccounts(st)
    ensures r.Err? <==> SetProfile(st, id, name, currency, budget).Err?
    ensures r.Err? ==> r.error == SetProfile(st, id, name, currency, budget).error
    ensures r.Ok? ==>
              && r.value.store == SetProfile(st, id, name, currency, budget).value
              && id in r.value.store.docs
              && r.value.user == View(id, r.value.store.docs[id])
              && r.value.user.email == st.docs[id].email
  {
    match SetProfile(st, id, name, currency, budget)
    case Err(e) => Err(e)
    case Ok(s) => Ok(ProfileSaved(s, View(id, s.docs[id])))
  }

  /** `PUT /profile/:id` as written: the write is committed, then the missing
      profile method throws, so the answer is the handler's error even though
      the account changed. Returns the store after the call and the answer. */
  function UpdateProfileAsWritten(st: AccountStore, id: Id, name: Option<string>,
                                  currency: Option<string>, budget: Option<real>)
    : (r: (AccountStore, Result<AccountView>))
    requires WfAccounts(st)
    ensures r.1.Err?
    ensures SetProfile(st, id, name, currency, budget).Err? ==>
              r.0 == st && r.1.error == SetProfile(st, id, name, currency, budget).error
    ensures SetProfile(st, id, name, currency, budget).Ok? ==>
              r.0 == SetProfile(st, id, name, currency, budget).value && r.1 == Err(InternalError)
  {
    match SetProfile(st, id, name, currency, budget)
    case Err(e) => (st, Err(e))
    case Ok(s) => (s, Err(InternalError))
  }

  /** Whenever the intended update succeeds, the written one stores the same
      change and still reports failure. */
  lemma UpdateProfileFinding(st: AccountStore, id: Id, name: Option<string>,
                             currency: Option<string>, budget: Option<real>)
    requires WfAccounts(st)
    requires UpdateProfile(st, id, name, currency, budget).Ok?
    ensures UpdateProfileAsWritten(st, id, name, currency, budget) ==
            (UpdateProfile(st, id, name, currency, budget).value.store, Err(InternalError))
  {
  }

  /** What an update answers is what a later get of the profile answers. */
  lemma UpdateProfileThenGet(st: AccountStore, id: Id, name: Option<string>,
                             currency: Option<string>, budget: Option<real>)
    requires WfAccounts(st)
    requires UpdateProfile(st, id, name, currency, budget).Ok?
    ensures var s := UpdateProfile(st, id, name, currency, budget).value;
            GetProfile(s.store, id) == Ok(s.user)
  {
  }

  // ---------------------------------------------------------------------
  // Settings

  datatype Settings = Settings(currency: Currency, monthlyBudget: real, categories: seq<Category>)

  /** `GET /:id/settings`. */
  function GetSettings(st: AccountStore, id: Id): (r: Result<Settings>)
    ensures r.Err? <==> id !in st.docs
    ensures r.Err? ==> r.error == NotFound
    ensures r.Ok? ==> && r.value.currency == st.docs[id].currency
                      && r.value.monthlyBudget == st.docs[id].monthlyBudget
                      && r.value.categories == st.docs[id].categories
  {
    if id in st.docs then
      var a := st.docs[id];
      Ok(Settings(a.currency, a.monthlyBudget, a.categories))
    else Err(NotFound)
  }

  datatype SettingsSaved = SettingsSaved(store: AccountStore, settings: Settings)

  /** `PUT /:id/settings`: the profile write without a name, answering with
      the updated settings. The name is never touched. */
  function UpdateSettings(st: AccountStore, id: Id, currency: Option<string>,
                          budget: Option<real>): (r: Result<SettingsSaved>)
    requires WfAccounts(st)
    ensures currency.Some? && ParseCurrency(currency.value).None? ==>
              r == Err(ValidationError({"currency"}))
    ensures (currency.None? || ParseCurrency(currency.value).Some?) && id !in st.docs ==>
              r == Err(NotFound)
    ensures r.Ok? <==> (currency.None? || ParseCurrency(currency.value).Some?) && id in st.docs
    ensures r.Ok? ==>
              && r.value.store == SetProfile(st, id, None, currency, budget).value
              && r.value.store.docs[id].name == st.docs[id].name
              && GetSettings(r.value.store, id) == Ok(r.value.settings)
  {
    assert currency.Some? && ParseCurrency(currency.value).None? ==>
           ProfileViolations(None, currency) == {"currency"};
    match SetProfile(st, id, None, currency, budget)
    case Err(e) => Err(e)
    case Ok(s) =>
      var a := s.docs[id];
      Ok(SettingsSaved(s, Settings(a.currency, a.monthlyBudget, a.categories)))
  }

  /** A settings update and a profile update that sends no name store the
      same thing. */
  lemma SettingsAreProfileWithoutName(st: AccountStore, id: Id, currency: Option<string>,
                                      budget: Option<real>)
    requires WfAccounts(st)
    ensures UpdateSettings(st, id, currency, budget).Ok? <==>
            UpdateProfile(st, id, None, currency, budget).Ok?
    ensures UpdateSettings(st, id, currency, budget).Ok? ==>
            UpdateSettings(st, id, currency, budget).value.store ==
            UpdateProfile(st, id, None, currency, budget).value.store
  {
  }

  // ---------------------------------------------------------------------
  // Categories

  /** `GET /:id/categories`. */
  function ListCategories(st: AccountStore, id: Id): (r: Result<seq<Category>>)
    ensures r.Err? <==> id !in st.docs
    ensures r.Err? ==> r.error == NotFound
    ensures r.Ok? ==> r.value == st.docs[id].categories
  {
    if id in st.docs then Ok(st.docs[id].categories) else Err(NotFound)
  }

  datatype CategoriesSaved = CategoriesSaved(store: AccountStore, categories: seq<Category>)

  /** The account with its category list replaced, saved. */
  function SaveCategories(st: AccountStore, id: Id, cs: seq<Category>): (r: CategoriesSaved)
    requires WfAccounts(st) && id in st.docs
    requires NamedCategories(cs)
    ensures WfAccounts(r.store) && r.store.next == st.next && r.categories == cs
    ensures r.store.docs == st.docs[id := st.docs[id].(categories := cs)]
    ensures ListCategories(r.store, id) == Ok(cs)
  {
    CategoriesSaved(Replace(st, id, st.docs[id].(categories := cs)), cs)
  }

  /** `POST /:id/categories`: the account lookup, then the list's add. */
  function AddCategory(st: AccountStore, id: Id, name: Option<string>, budget: Option<real>,
                       color: Option<string>, rand: nat): (r: Result<CategoriesSaved>)
    requires WfAccounts(st) && rand < CategoryList.ColorRange
    ensures id !in st.docs ==> r == Err(NotFound)
    ensures id in st.docs ==>
              var added := CategoryList.Add(st.docs[id].categories, name, budget, color, rand);
              && (r.Ok? <==> added.Ok?)
              && (r.Err? ==> r.error == added.error)
              && (r.Ok? ==> r.value.categories == added.value)
    ensures r.Ok? ==>
              && WfAccounts(r.value.store)
              && r.value.store.next == st.next
              && r.value.store.docs.Keys == st.docs.Keys
              && (forall other :: other in st.docs && other != id ==>
                                    r.value.store.docs[other] == st.docs[other])
              && r.value.store.docs[id] == st.docs[id].(categories := r.value.categories)
              && ListCategories(r.value.store, id) == Ok(r.value.categories)
  {
    if id !in st.docs then Err(NotFound)
    else
      var cs := st.docs[id].categories;
      match CategoryList.Add(cs, name, budget, color, rand)
      case Err(e) => Err(e)
      case Ok(cs') =>
        Ok(SaveCategories(st, id, cs'))
  }

  /** `PUT /:id/categories/:categoryId`: the account lookup, then the list's
      update. */
  function UpdateCategory(st: AccountStore, id: Id, categoryId: Id, name: Option<string>,
                          budget: Option<real>, color: Option<string>): (r: Result<CategoriesSaved>)
    requires WfAccounts(st)
    ensures id !in st.docs ==> r == Err(NotFound)
    ensures id in st.docs ==>
              var updated := CategoryList.Update(st.docs[id].categories, categoryId, name, budget, color);
              && (r.Ok? <==> updated.Ok?)
              && (r.Err? ==> r.error == updated.error)
              && (r.Ok? ==> r.value.categories == updated.value)
    ensures r.Ok? ==>
              && WfAccounts(r.value.store)
              && r.value.store.next == st.next
              && r.value.store.docs.Keys == st.docs.Keys
              && (forall other :: other in st.docs && other != id ==>
                                    r.value.store.docs[other] == st.docs[other])
              && r.value.store.docs[id] == st.docs[id].(categories := r.value.categories)
              && ListCategories(r.value.store, id) == Ok(r.value.categories)
  {
    if id !in st.docs then Err(NotFound)
    else
      var cs := st.docs[id].categories;
      match CategoryList.Update(cs, categoryId, name, budget, color)
      case Err(e) => Err(e)
      case Ok(cs') =>
        Ok(SaveCategories(st, id, cs'))
  }

  /** `DELETE /:id/categories/:categoryId`: the account lookup, then the
      list's delete. */
  function DeleteCategory(st: AccountStore, id: Id, categoryId: Id): (r: Result<CategoriesSaved>)
    requires WfAccounts(st)
    ensures id !in st.docs ==> r == Err(NotFound)
    ensures id in st.docs ==>
              var deleted := CategoryList.Delete(st.docs[id].categories, categoryId);
              && (r.Ok? <==> deleted.Ok?)
              && (r.Err? ==> r.error == deleted.error)
              && (r.Ok? ==> r.value.categories == deleted.value)
    ensures r.Ok? ==>
              && WfAccounts(r.value.store)
              && r.value.store.next == st.next
              && r.value.store.docs.Keys == st.docs.Keys
              && (forall other :: other in st.docs && other != id ==>
                                    r.value.store.docs[other] == st.docs[other])
              && r.value.store.docs[id] == st.docs[id].(categories := r.value.categories)
              && ListCategories(r.value.store, id) == Ok(r.value.categories)
  {
    if id !in st.docs then Err(NotFound)
    else
      var cs := st.docs[id].categories;
      match CategoryList.Delete(cs, categoryId)
      case Err(e) => Err(e)
      case Ok(cs') =>
        Ok(SaveCategories(st, id, cs'))
  }

  /** Deleting the category just added gives the account back unchanged. */
  lemma AddThenDeleteCategory(st: AccountStore, id: Id, name: Option<string>, budget: Option<real>,
                              color: Option<string>, rand: nat)
    requires WfAccounts(st) && rand < CategoryList.ColorRange
    requires AddCategory(st, id, name, budget, color, rand).Ok?
    ensures var s := AddCategory(st, id, name, budget, color, rand).value;
            var n := |st.docs[id].categories|;
            && |s.categories| == n + 1
            && DeleteCategory(s.store, id, s.categories[n].id).Ok?
            && DeleteCategory(s.store, id, s.categories[n].id).value.store == st
  {
    var s := AddCategory(st, id, name, budget, color, rand).value;
    var cs := st.docs[id].categories;
    CategoryList.AddThenDelete(cs, name, budget, color, rand);
    assert s.store == SaveCategories(st, id, s.categories).store;
    DeleteAfterSave(st, id, s.categories, s.categories[|cs|].id);
  }

  /** Saving a list and then deleting from it what brings it back to the
      stored list restores the store. */
  lemma DeleteAfterSave(st: AccountStore, id: Id, cs: seq<Category>, categoryId: Id)
    requires WfAccounts(st) && id in st.docs && NamedCategories(cs)
    requires CategoryList.Delete(cs, categoryId) == Ok(st.docs[id].categories)
    ensures DeleteCategory(SaveCategories(st, id, cs).store, id, categoryId).Ok?
    ensures DeleteCategory(SaveCategories(st, id, cs).store, id, categoryId).value.store == st
  {
    var a := st.docs[id];
    var saved := SaveCategories(st, id, cs).store;
    assert saved.docs == st.docs[id := a.(categories := cs)];
    var r := DeleteCategory(saved, id, categoryId);
    assert r.Ok? && r.value.categories == a.categories;
    assert r.value.store.docs == saved.docs[id := a];
    MapUpdateTwice(st.docs, id, a.(categories := cs));
  }

  lemma MapUpdateTwice<K, V>(m: map<K, V>, k: K, v: V)
    requires k in m
    ensures m[k := v][k := m[k]] == m
  {
  }

  // ---------------------------------------------------------------------
  // Deleting an account

  /** Both collections of the backend. */
  datatype Db = Db(accounts: AccountStore, transactions: ExpenseRoutes.TxStore)

  /** `DELETE /:id`: removes the account document and nothing else. */
  function DeleteAccount(db: Db, id: Id): (r: Result<Db>)
    requires WfAccounts(db.accounts)
    ensures r.Err? <==> id !in db.accounts.docs
    ensures r.Err? ==> r.error == NotFound
    ensures r.Ok? ==> && WfAccounts(r.value.accounts)
                      && r.value.accounts.docs == db.accounts.docs - {id}
                      && r.value.accounts.next == db.accounts.next
                      && r.value.transactions == db.transactions
  {
    if id in db.accounts.docs then
      WfAccountsRemove(db.accounts, id);
      Ok(Db(AccountStore(db.accounts.docs - {id}, db.accounts.next), db.transactions))
    else Err(NotFound)
  }

  /** A deleted account is gone, but its transactions stay behind, still
      owned by its id. */
  lemma DeleteAccountOrphansTransactions(db: Db, id: Id)
    requires WfAccounts(db.accounts) && ExpenseRoutes.Wf(db.transactions)
    requires DeleteAccount(db, id).Ok?
    ensures var after := DeleteAccount(db, id).value;
            && GetProfile(after.accounts, id) == Err(NotFound)
            && ExpenseRoutes.Owned(ExpenseRoutes.All(after.transactions), id) ==
               ExpenseRoutes.Owned(ExpenseRoutes.All(db.transactions), id)
  {
  }
}
